=== FILE: README.md ===
# extrachat: MCP tool invocation, modelled in Dafny

extrachat is a terminal chat bot. It talks to one of four LLM backends:
Ollama, Anthropic, Grok or OpenAI. When the Anthropic backend is used with
MCP enabled, it offers the model the tools of a set of Model Context
Protocol (MCP) servers, and it runs the tools the model asks for. This
project models that path as pure functions over immutable values:

- **Transports.** `Stdio`, `WebSocket` and `Http` each model one MCP client.
  `Stdio` talks to a Python child process over its pipes, `WebSocket` uses
  a socket, and `Http` POSTs JSON-RPC to `<base>/rpc`.
  - Each client keeps a request id that counts up from 0. The id is an
    int32 and wraps around.
  - A closed stdio or WebSocket client refuses every request.
  - `Protocol.Settle` is the one decision every transport shares: it turns
    a decoded response into a result or an RPC error.
  - Whatever crosses the wire is an oracle parameter (`Wire`): a write
    error, a read error, end of stream or a decoded response.
- **Clients.** `Clients` dispatches the `MCPClient` interface over the
  three transports.
- **Registry.** `Registry` models `ClientRegistry`: a map from server name
  to client. Go's map iteration order is modelled by methods that choose
  an order and return it.
- **Catalog.** `Catalog` models:
  - `initializeMCP`, which connects and initializes every configured
    server and registers the ones that succeed;
  - `refreshMCPTools`, which builds the tool catalog from every registered
    server;
  - `invokeMCPTool`, which sends a tool to the server of the first catalog
    entry with that tool's name;
  - closing every server.
- **Orchestrator.** `Orchestrator` models the Anthropic tool-use loop:
  - `callAnthropic` sends the first request and dispatches on the stop
    reason.
  - `handleAnthropicToolUse` answers every `tool_use` block with one
    `tool_result` block, in order, and sends a follow-up request. It goes
    round again while the model keeps asking for tools.
  - The Messages API is a finite script of replies, one per request sent.
- **Cache.** `Cache` models the response cache key: the lowercase hex of
  SHA-256 over every message's role and content. SHA-256 itself is a
  parameter.
- **Session and Chat.** `Session` holds the session record. `Chat` models
  `sendMessage` (with the cache and the backend switch) and
  `handleCommand`.

Some behaviours of the code that the model keeps as written:

- No transport compares a response's `id` or `jsonrpc` with the request's.
  `Protocol.SettleIgnoresEnvelope` states this.
- `/new-session` starts the new session on the configured backend, not on
  the one chosen with `/switch`.
- After a second round of tool use, the history sent to the API holds two
  placeholder messages in place of the real `tool_use` and `tool_result`
  messages.
- The follow-up request checks the API key only after the tools have run.
- Every follow-up request carries the whole catalog as tools.
- The HTTP client's `Close` does nothing. A "closed" HTTP client still
  sends requests.
- The HTTP client treats every status other than 200 as an error.
- The cache key puts no separator between a role and its content or
  between messages. Different conversations can therefore share a key;
  `Cache.NoSeparatorCollision` exhibits one.
- A tool lookup stops at the first catalog entry with the tool's name.
  If that entry's server is gone, the lookup fails even when a later entry
  names a live server.

## Model

| member | source | states |
|---|---|---|
| Errors.DigitsRoundTrip | internal/mcp/stdio.go:225 | the `%d` rendering used in RPC and HTTP error messages is a non-empty run of decimal digits that reads back to the number |
| Protocol.NextId | internal/mcp/stdio.go:186 | the next request id is the previous one plus one with int32 two's-complement wrap-around |
| Protocol.IdsCountUp | internal/mcp/stdio.go:186 | below the int32 limit, n requests take ids last+1, last+2, …, last+n |
| Protocol.IdWrapsAtMax | internal/mcp/stdio.go:186 | the request after id 2147483647 gets id -2147483648, so ids stop increasing |
| Protocol.Tag | internal/mcp/stdio.go:113-121 | every listed tool keeps its name, description and schema, in order, and is tagged with the server it came from |
| Protocol.TagRoundTrip | internal/mcp/stdio.go:113-121 | dropping the server tag gives back exactly the tool list the server sent |
| Protocol.Settle | internal/mcp/stdio.go:223-237 | an error member becomes an RPC error with its code and message; otherwise a missing result is the zero value, a result that decodes is returned, and one that does not decode fails; it fails exactly in the error and non-decoding cases |
| Protocol.SettleIgnoresEnvelope | internal/mcp/stdio.go:215-237 | the outcome of a response does not depend on its id or jsonrpc version |
| Protocol.Initialized | internal/mcp/stdio.go:97-104 | a client's Initialize succeeds exactly when its exchange does, returning the reply's server info; a failure is wrapped with "initialize failed" |
| Protocol.ToolsListed | internal/mcp/stdio.go:108-124 | a client's ListTools succeeds exactly when its exchange does; the tools, untagged, are the server's list, and each is tagged with the client's name; a failure is wrapped with "list tools failed" |
| Protocol.ToolCalled | internal/mcp/stdio.go:134-140 | a client's CallTool returns the exchange's result unchanged on success and wraps a failure with "call tool failed" |
| Errors.DigitsNoLeadingZero | internal/mcp/stdio.go:225 | the `%d` rendering is never empty and starts with '0' exactly for zero, which is the single digit "0" |
| Stdio.New | internal/mcp/stdio.go:30-81 | a nil logger fails before anything is acquired; the first failing step (stdin, stdout, stderr pipe, then start) is the one reported, with its own error, and exactly the pipes opened before it are acquired and closed; a pipe is acquired exactly when no earlier step failed; success starts the process with `python3 <script>`, holds three pipes and begins at request id 0 |
| Stdio.Send | internal/mcp/stdio.go:177-240 | a closed client issues nothing and fails with "client is closed"; an open one issues a JSON-RPC 2.0 request with the next id, fails on end of output with the EOF error, and otherwise settles the response; success implies a line was read |
| Stdio.Initialize | internal/mcp/stdio.go:89-104 | a closed client fails with "initialize failed: client is closed" and sends nothing; an open one sends `initialize` with the next id and client info extrachat 1.0.0; success returns the server info of the line read |
| Stdio.ListTools | internal/mcp/stdio.go:107-125 | a closed client fails and sends nothing; an open one sends `tools/list` without params; success returns the tools of the line read, in order, each tagged with this client's name |
| Stdio.CallTool | internal/mcp/stdio.go:128-141 | a closed client fails and sends nothing; an open one sends `tools/call` with the tool name and arguments; success returns the result of the line read |
| Stdio.Close | internal/mcp/stdio.go:144-174 | closing marks the client closed; the first close releases stdin, stdout and stderr, kills and reaps the process, and a second close releases nothing |
| Stdio.CloseIdempotent | internal/mcp/stdio.go:148-151 | closing twice equals closing once, and a closed client refuses every request |
| Stdio.RunTakesConsecutiveIds | internal/mcp/stdio.go:186 | on an open client, successive requests take consecutive ids whatever their outcomes, and the client stays open |
| Stdio.FreshClientIdsStartAtOne | internal/mcp/stdio.go:70 | a new client's first n requests carry ids 1..n |
| Stdio.ClosedRunTakesNoIds | internal/mcp/stdio.go:181-183 | a closed client issues no request and its id counter does not move |
| WebSocket.New | internal/mcp/websocket.go:26-48 | a nil logger fails before dialling; a failed dial gives the connect error; success holds the connection and begins at id 0 |
| WebSocket.Send | internal/mcp/websocket.go:140-187 | a closed client issues nothing and fails; an open one issues the next id and settles the frame it reads; success implies a frame was read |
| WebSocket.Initialize | internal/mcp/websocket.go:56-80 | a closed client fails and sends nothing; an open one sends `initialize` with the next id and client info extrachat 1.1.0; success returns the server info of the frame read |
| WebSocket.ListTools | internal/mcp/websocket.go:83-101 | a closed client fails and sends nothing; success returns the tools of the frame read, in order, each tagged with this client's name |
| WebSocket.CallTool | internal/mcp/websocket.go:104-117 | a closed client fails and sends nothing; an open one sends `tools/call` with the tool name and arguments; success returns the result of the frame read |
| WebSocket.Close | internal/mcp/websocket.go:120-137 | the first close sends a normal-closure (1000) close frame and closes the connection; a second releases nothing |
| WebSocket.CloseIdempotent | internal/mcp/websocket.go:124-127 | closing twice equals closing once, and a closed client refuses every request |
| WebSocket.RunTakesConsecutiveIds | internal/mcp/websocket.go:149 | an open client's successive requests take consecutive ids |
| WebSocket.FreshClientIdsStartAtOne | internal/mcp/websocket.go:41 | a new client's first n requests carry ids 1..n |
| WebSocket.ClosedRunTakesNoIds | internal/mcp/websocket.go:144-146 | a closed client issues no request and its id counter does not move |
| Http.New | internal/mcp/http.go:24-41 | creation fails exactly when the logger is nil; a client begins at id 0 |
| Http.PostFor | internal/mcp/http.go:128-141 | every request is a POST of the JSON body to the base URL followed by `/rpc`, as application/json |
| Http.Send | internal/mcp/http.go:110-178 | every call issues a request with the next id; a transport error, any status other than 200, an unreadable body or an undecodable envelope fails; otherwise the response is settled |
| Http.Initialize | internal/mcp/http.go:49-64 | always sends `initialize` with the next id and client info extrachat 1.0.0; success requires a 200 answer and returns its server info |
| Http.ListTools | internal/mcp/http.go:67-85 | always sends `tools/list`; success requires a 200 answer and returns its tools, in order, each tagged with this client's name |
| Http.CallTool | internal/mcp/http.go:88-101 | always sends `tools/call` with the tool name and arguments; success requires a 200 answer and returns its result |
| Http.Close | internal/mcp/http.go:104-107 | closing leaves the client as it was |
| Http.UsableAfterClose | internal/mcp/http.go:104-112 | a closed HTTP client still sends every request exactly as before |
| Http.RunTakesConsecutiveIds | internal/mcp/http.go:112 | successive requests take consecutive ids |
| Http.FreshClientIdsStartAtOne | internal/mcp/http.go:35 | a new client's first n requests carry ids 1..n |
| Clients.Close | internal/mcp/client.go:20-21 | closing never reports an error, keeps the name and transport, and afterwards only an HTTP client accepts requests |
| Clients.CloseIdempotent | internal/mcp/client.go:20-21 | closing a closed client changes nothing |
| Clients.Initialize | internal/mcp/client.go:12-13 | keeps name, transport and openness; a request is issued exactly when the client accepts requests, and it is an `initialize` |
| Clients.ListTools | internal/mcp/client.go:14-15 | a request is issued exactly when the client accepts requests; every tool returned names this client as its server |
| Clients.CallTool | internal/mcp/client.go:16-18 | a client that refuses requests fails with "call tool failed: client is closed" and issues nothing; otherwise a `tools/call` is issued |
| Clients.SameDecisionOnEveryTransport | internal/mcp/client.go:9-25 | given the same decoded response, the stdio, WebSocket and HTTP (status 200) transports return the same result |
| Registry.Empty | internal/mcp/client.go:42-46 | a new registry holds no clients |
| Registry.Register | internal/mcp/client.go:49-53 | after registering, the name maps to the client, every other name is unchanged, and the count grows exactly when the name was new |
| Registry.GetAfterRegistrations | internal/mcp/client.go:56-61 | after a sequence of registrations, a name maps to its last registered client, and the lookup misses exactly for names never registered |
| Registry.CountIsDistinctNames | internal/mcp/client.go:89-93 | the count after a sequence of registrations is the number of distinct names registered |
| Registry.All | internal/mcp/client.go:64-72 | lists every registered client once, in some order of the names, with as many entries as the count |
| Registry.CloseAll | internal/mcp/client.go:75-86 | closes every client, keeps every name; reports no error exactly when every close succeeded, otherwise the first failure in its order, wrapped with that client's name |
| Catalog.FirstMatch | internal/chatbot/chatbot.go:1059-1068 | finds the first catalog entry with the tool's name, and finds none exactly when no entry has that name |
| Catalog.InvokeTool | internal/chatbot/chatbot.go:1056-1082 | an unknown tool fails with "tool not found", and a first match whose server is not registered fails with "server not found"; neither calls anything; when the first match's server is registered, that server is called with the tool, its new state is stored, and an error is wrapped with "failed to call tool"; the registry's names never change |
| Catalog.ShadowedToolsIgnored | internal/chatbot/chatbot.go:1059-1067 | entries after the first one with a tool's name never affect an invocation of it |
| Catalog.ServedToolsReachTheirServer | internal/chatbot/chatbot.go:1061-1065 | when every catalog entry's server is registered, a known tool is always called on its server |
| Catalog.Listed | internal/chatbot/chatbot.go:1042-1048 | every listed tool names the client it came from, and a server whose listing fails contributes nothing |
| Catalog.Gather | internal/chatbot/chatbot.go:1041-1050 | refreshing keeps the registered names and whether each client accepts requests; unvisited clients are untouched; when no server is visited twice, every visited client is left in the state its own listing moved it to (its request counter advanced); every gathered tool names a visited, registered server |
| Catalog.GatherIsSnapshot | internal/chatbot/chatbot.go:1038-1053 | the gathered catalog is the concatenation, in visiting order, of what each server lists |
| Catalog.Refresh | internal/chatbot/chatbot.go:1038-1053 | visits every server once, yields the concatenated listings, keeps the names, leaves every client in the state its listing moved it to, serves every tool from a registered server, and never reports an error |
| Catalog.ConnectLocal | internal/chatbot/chatbot.go:984-999 | a script is registered exactly when its stdio client starts and initializes, as the client initialize left it; a client that fails to initialize is closed and dropped with the initialize error; a start failure registers nothing and builds no client |
| Catalog.ConnectRemote | internal/chatbot/chatbot.go:1002-1026 | a `ws://` or `wss://` URL gets a WebSocket client and any other an HTTP client; a failed dial registers nothing; with a successful dial (or for HTTP), the URL is registered exactly when initialize succeeds; a client that fails to initialize is closed (an HTTP client stays usable, as its Close does nothing) and dropped with the initialize error |
| Catalog.LocalNames | internal/chatbot/chatbot.go:984-999 | the names registered from the local scripts are exactly the scripts whose servers connect |
| Catalog.RemoteNames | internal/chatbot/chatbot.go:1002-1026 | the names registered from the remote URLs are exactly the URLs whose servers connect |
| Catalog.NamesMatchAfterRegistrations | internal/chatbot/chatbot.go:997 | registering clients under their own names yields a registry in which every client is filed under its own name |
| Catalog.InitializeMcp | internal/chatbot/chatbot.go:979-1035 | the registry holds exactly the scripts and URLs whose servers connected, each filed under its own name and accepting requests; the catalog is the full refresh of that registry (every server's listing, in the enumeration order) and each client ends in the state its listing left it; no error is reported |
| Catalog.CloseServers | internal/mcp/client.go:75-86 | closing all servers never fails, keeps every name, and leaves only HTTP clients accepting requests |
| Orchestrator.ConvertTools | internal/chatbot/chatbot.go:228-238 | each catalog tool becomes one API tool with the same name, description and input schema, in order |
| Orchestrator.UsesSelects | internal/chatbot/chatbot.go:841-842 | the tool_use blocks of two parts are those of each part, in order, and a block is selected exactly when it is a tool_use |
| Orchestrator.ResultFor | internal/chatbot/chatbot.go:848-870 | a tool_result answers the given id; it is an error exactly when the invocation failed, and its text is then "Error: " and the error message |
| Orchestrator.ToolResults | internal/chatbot/chatbot.go:841-873 | one tool_result per tool_use block, in order, each answering that block's id, marked as an error exactly when it carries an "Error: " message; the registry's names are kept |
| Orchestrator.ToolResultsSplit | internal/chatbot/chatbot.go:841-873 | the loop over a split reply is the loop over the first part followed by the loop over the second, on the registry the first part left; results and registry both compose |
| Orchestrator.UseAnsweredInPlace | internal/chatbot/chatbot.go:842-870 | wherever a tool_use stands in a reply with other tool_use blocks around it, its tool_result is the outcome of invoking its own tool on the registry the earlier invocations left: an error-flagged "Error: …" result exactly when that invocation fails |
| Orchestrator.PassedOver | internal/chatbot/chatbot.go:842-843 | a block that is not tool_use gets no tool_result and invokes nothing |
| Orchestrator.OneToolUse | internal/chatbot/chatbot.go:846-871 | a single tool_use block yields the result of invoking that tool with its input |
| Orchestrator.FirstText | internal/chatbot/chatbot.go:968-973 | the reply's first text block is found, and none is found exactly when there is no text block |
| Orchestrator.Finish | internal/chatbot/chatbot.go:968-975 | the turn answers exactly when the reply has a text block, and the answer is the text of the first text block; otherwise it fails with the given empty-response error |
| Orchestrator.FollowUp | internal/chatbot/chatbot.go:881-899 | the follow-up history is the prior messages, then the assistant's blocks, then a user message of the tool results |
| Orchestrator.HandleToolUse | internal/chatbot/chatbot.go:830-976 | no tool_use blocks fails without sending; a missing key fails after the tools ran; otherwise the first request is the follow-up with the whole catalog, and at most one request per script reply plus one is sent; a follow-up call that fails ends the turn with that error as a backend failure, and a follow-up reply that does not ask for tools ends it with that reply's first text or "empty response after tool use", both after exactly one request and keeping the registry the tools left |
| Orchestrator.CallAnthropic | internal/chatbot/chatbot.go:241-331 | a missing key fails without sending; the first request carries the messages and offers tools only when MCP is enabled and the catalog is not empty; a failed call fails with the registry untouched; a reply that does not stop for tool use ends the turn with its first text or "empty response"; a "tool_use" stop hands over to handleAnthropicToolUse, whose outcome, registry and requests the turn takes, so a stop without tool_use blocks fails with that error |
| Orchestrator.NextRound | internal/chatbot/chatbot.go:950-966 | a follow-up reply that asks for tools again starts the next round from the prior messages plus two placeholders and the registry this round's tools left; the turn's outcome, registry and remaining requests are that round's |
| Orchestrator.LastRound | internal/chatbot/chatbot.go:968-975 | a follow-up reply that does not ask for tools ends the turn after one request with its first text block, keeping the registry this round's tools left, whatever the rest of the script holds |
| Orchestrator.RoundsThenFailure | internal/chatbot/chatbot.go:928-966 | when every follow-up reply but the last asks for tools again and the last call fails, one request is sent per scripted reply and the turn fails with the last call's error |
| Orchestrator.RoundsRegistry | internal/chatbot/chatbot.go:841-873 | after a run of tool rounds that ends in a final reply or a failed call, the registry is the one every round's tools leave, each round running on the registry the round before left, so no client's request counter is rolled back |
| Orchestrator.TurnRegistry | internal/chatbot/chatbot.go:318-330 | a turn whose first reply ends it leaves the registry alone; otherwise the registry is the one the rounds' tools leave |
| Orchestrator.CallsUntilFailure | internal/chatbot/chatbot.go:318-330 | when every model reply but the last asks for tools and the last call fails, exactly one model call is made per reply and the turn fails with the last call's error |
| Orchestrator.RoundsOfToolUse | internal/chatbot/chatbot.go:950-966 | with k further tool rounds before a final reply, k+1 requests are sent; the i-th starts from the prior messages and i placeholder pairs, ends with an assistant message of blocks and a user message of blocks, and offers the catalog; the answer is the final reply's first text |
| Orchestrator.ModelCallsPerTurn | internal/chatbot/chatbot.go:318-330 | k tool-use replies followed by a final one make exactly k+1 model calls, and the turn ends with the final reply's first text block |
| Session.NewSession | internal/chatbot/chatbot.go:101-111 | a new session is empty, starts now, uses the given backend and is named "session_" followed by the time in decimal: a minus sign if negative, then digits with no leading zero that read back as the time |
| Cache.Hex | internal/cache/cache.go:24 | `%x` of a digest gives two lowercase hex digits per byte |
| Cache.HexRoundTrip | internal/cache/cache.go:24 | reading the hex text back gives the digest |
| Cache.Key | internal/cache/cache.go:18-25 | the key is 64 lowercase hex digits that read back to the hash of the roles and contents |
| Cache.PreimageConcat | internal/cache/cache.go:20-23 | hashing a conversation feeds its parts' texts in order |
| Cache.KeyPrefixInBounds | internal/chatbot/chatbot.go:191 | every key is long enough for the `key[:16]` slice the cache logs |
| Cache.KeyIgnoresTimestamps | internal/cache/cache.go:20-23 | conversations that agree on roles and contents share a key, whatever their timestamps |
| Cache.KeysCompareDigests | internal/cache/cache.go:24 | two keys are equal exactly when their digests are |
| Cache.NoSeparatorCollision | internal/cache/cache.go:21-22 | two different conversations feed the same text and get the same key under every hash function |
| Chat.ApiMessages | internal/chatbot/chatbot.go:253-259 | each session message is sent with its role and content, in order |
| Chat.Ask | internal/chatbot/chatbot.go:608-619 | the Anthropic backend's outcome and registry are those of callAnthropic on the given messages, with the environment's key and the MCP switch, and keep the registry's names; Ollama, Grok and OpenAI answer with their backend's reply or fail with its error and leave the registry alone; an unknown backend fails with "unknown backend" |
| Chat.SendMessage | internal/chatbot/chatbot.go:581-642 | the user's message is appended first; a cache hit appends and returns the cached reply without asking a backend; a miss asks the session's backend on the conversation with the user's message and takes its outcome and registry; a reply is appended and cached under the key of the conversation up to the user's message; a failure leaves the user's message last and the cache unchanged |
| Chat.AnthropicTurnAnswers | internal/chatbot/chatbot.go:608-633 | on a cache miss with the Anthropic backend and a reply script that settles after k tool rounds, the answer is the final reply's first text block and it is cached |
| Chat.RepliesAreCached | internal/chatbot/chatbot.go:593-603 | sending the same message again on the same conversation, at any time, is answered from the cache without asking a backend |
| Chat.Fields | internal/chatbot/chatbot.go:646 | splitting a command yields non-empty words free of white space |
| Chat.FieldsOfJoin | internal/chatbot/chatbot.go:646 | splitting words joined by single spaces gives back the words |
| Chat.FieldsSkipsSpaces | internal/chatbot/chatbot.go:646 | leading white space does not change the split |
| Chat.HandleCommand | internal/chatbot/chatbot.go:645-772 | quits exactly on /quit or /exit; blank input changes nothing; /switch to a known backend changes only the session's backend, an unknown one or a missing argument is an error; /new-session replaces only the session, with an empty one on the configured backend named `session_<now>`; /set-ollama-model changes only the model, and without an argument is a usage error; /list-ollama-models changes nothing and reports a listing failure; /mcp-reload with MCP on and initialized rebuilds the catalog as a full refresh and keeps each client's listed state, and otherwise changes nothing; unknown commands change nothing; the cache, configured backend and MCP switch never change |

## Left out

- Real I/O is not modelled: process spawning, pipes, sockets, HTTP, the stderr-draining goroutine and the mutexes. Each becomes an oracle parameter (`Host`, `Wire`, `Remote`, the reply script) or is dropped, because the model has no operating system.
- JSON encoding and decoding are left out. A response carries its `result` already decoded, or marked as not fitting the expected type. A successful tool_result keeps the `CallToolResult` value instead of its JSON text, and the "failed to marshal result" fallback is therefore not modelled.
- Stdio.Send: a request that cannot be encoded is an oracle outcome of the wire, not a property of the request, because the model has no JSON.
- Concurrency is not modelled: `ClientRegistry`'s RWMutex, the chat bot's mutex and the session-saving goroutine. Every operation runs alone.
- The clock is a parameter `now`. One `now` stands for every `time.Now()` call within one `sendMessage` or `newSession`.
- SHA-256 is a parameter `hash`: any function from the hashed text to 32 bytes. The conversion of the text to UTF-8 bytes is folded into it.
- The Anthropic Messages API is a finite script of replies. Any failure between marshalling and unmarshalling (network, status, body, JSON) is a single `CallFailed` reply carrying the error text. Running out of script gives the `Unfinished` outcome, which has no counterpart in the code.
- Orchestrator.HandleToolUse: the follow-up's "failed to marshal/create/send/read/unmarshal follow-up request" errors and "API error on follow-up" are folded into the `CallFailed` message text, not built from their parts.
- HTTP headers (`x-api-key`, `anthropic-version`, content type) and the API URL are not modelled.
- The Ollama, Grok and OpenAI backends (`callOllama`, `callGrok`, `callOpenAI`) are one oracle `other`, because they are outside the MCP path.
- Telemetry (spans, metrics, `recordMetrics`) and logging are left out: they do not change results.
- `saveSession`, `loadSession` and the session files are left out: they are file I/O.
- Chat.HandleCommand: `/help`, `/mcp-list` and `/mcp-servers` only print, and are modelled as changing nothing. `/list-ollama-models` is modelled only by its error, because the listing itself is an HTTP call to Ollama that only prints.
- Chat.HandleCommand: the "failed to reload MCP tools" error is not produced, because `refreshMCPTools` always returns nil; `Catalog.Refresh` states that.
- Catalog.InitializeMcp: the "failed to refresh MCP tools" error is likewise never produced.
- WebSocket.Initialize: the request's protocol version (2024-11-05) and roots capability are not modelled; its parameters carry only the client info, because the server's reply does not depend on them in the model.
- Catalog.LocalRegistrations: the `hosts` oracle is keyed by script path (and `dials` by URL for Catalog.RemoteRegistrations), so two identical configuration entries get the same start or dial outcome, whereas the code starts each entry independently. The second entry would replace the first under the same name in the registry either way.
- Orchestrator.Block: a block's `type` is chosen by its constructor; `Other` is meant only for types other than "text", "tool_use" and "tool_result" (`Orchestrator.WellKinded`). The model does not require this of its inputs, because the API reply is decoded outside the model.
- `main.go`, the configuration flags and the command-line entry point are not part of this model.

=== FILE: cache.dfy ===
/** GenerateCacheKey (internal/cache/cache.go): the lowercase hex rendering
    of the SHA-256 digest of every message's role followed by its content,
    in order, with nothing between them. SHA-256 is a parameter: any
    function from the hashed text to a 32-byte digest. */
module Cache {
  import opened Session

  newtype byte = x: int | 0 <= x < 256

  /** A SHA-256 digest: 32 bytes. */
  type Digest = d: seq<byte> | |d| == 32 witness seq(32, _ => 0)

  const DigestLength := 32

  /** The text the hash is fed: role, content, role, content, ... */
  function Preimage(messages: seq<Message>): string
    decreases |messages|
  {
    if |messages| == 0 then []
    else Preimage(messages[..|messages| - 1]) + messages[|messages| - 1].role + messages[|messages| - 1].content
  }

  /** Feeding a conversation in two parts feeds the parts' texts in order. */
  lemma {:induction false} PreimageConcat(a: seq<Message>, b: seq<Message>)
    ensures Preimage(a + b) == Preimage(a) + Preimage(b)
    decreases |b|
  {
    if |b| == 0 {
      assert a + b == a;
    } else {
      var init := b[..|b| - 1];
      PreimageConcat(a, init);
      assert (a + b)[..|a + b| - 1] == a + init;
      assert (a + b)[|a + b| - 1] == b[|b| - 1];
    }
  }

  predicate IsLowerHex(c: char) {
    '0' <= c <= '9' || 'a' <= c <= 'f'
  }

  function HexDigit(n: int): (c: char)
    requires 0 <= n < 16
    ensures IsLowerHex(c)
  {
    if n < 10 then ('0' as int + n) as char else ('a' as int + n - 10) as char
  }

  function HexValue(c: char): (n: int)
    requires IsLowerHex(c)
    ensures 0 <= n < 16 && HexDigit(n) == c
  {
    if c <= '9' then c as int - '0' as int else c as int - 'a' as int + 10
  }

  /** `%x` of a byte slice: two lowercase hex digits per byte, high nibble
      first. */
  function Hex(d: seq<byte>): (h: string)
    ensures |h| == 2 * |d|
    ensures forall i :: 0 <= i < |h| ==> IsLowerHex(h[i])
    decreases |d|
  {
    if |d| == 0 then []
    else [HexDigit(d[0] as int / 16), HexDigit(d[0] as int % 16)] + Hex(d[1..])
  }

  /** Reads back a hex rendering; the partner of `Hex`. */
  function Unhex(h: string): (d: seq<byte>)
    requires |h| % 2 == 0
    requires forall i :: 0 <= i < |h| ==> IsLowerHex(h[i])
    ensures |d| * 2 == |h|
    decreases |h|
  {
    if |h| == 0 then []
    else [(HexValue(h[0]) * 16 + HexValue(h[1])) as byte] + Unhex(h[2..])
  }

  lemma {:induction false} HexRoundTrip(d: seq<byte>)
    ensures Unhex(Hex(d)) == d
    decreases |d|
  {
    if |d| > 0 {
      HexRoundTrip(d[1..]);
      var h := Hex(d);
      var hi, lo := d[0] as int / 16, d[0] as int % 16;
      assert h[0] == HexDigit(hi) && h[1] == HexDigit(lo);
      assert HexValue(HexDigit(hi)) == hi by {
        var v := HexValue(HexDigit(hi));
        if v != hi { HexDigitInjective(v, hi); }
      }
      assert HexValue(HexDigit(lo)) == lo by {
        var v := HexValue(HexDigit(lo));
        if v != lo { HexDigitInjective(v, lo); }
      }
      assert h[2..] == Hex(d[1..]);
    }
  }

  lemma HexDigitInjective(a: int, b: int)
    requires 0 <= a < 16 && 0 <= b < 16 && a != b
    ensures HexDigit(a) != HexDigit(b)
  {
  }

  /** GenerateCacheKey. */
  function Key(messages: seq<Message>, hash: string -> Digest): (k: string)
    ensures |k| == 2 * DigestLength
    ensures forall i :: 0 <= i < |k| ==> IsLowerHex(k[i])
    ensures Unhex(k) == hash(Preimage(messages))
  {
    HexRoundTrip(hash(Preimage(messages)));
    Hex(hash(Preimage(messages)))
  }

  /** The log lines of checkCache and storeCache print `key[:16]`: every
      key is long enough. */
  lemma KeyPrefixInBounds(messages: seq<Message>, hash: string -> Digest)
    ensures 16 <= |Key(messages, hash)|
  {
  }

  /** Conversations that agree on every role and content, whatever their
      timestamps, have the same key. */
  lemma {:induction false} KeyIgnoresTimestamps(a: seq<Message>, b: seq<Message>, hash: string -> Digest)
    requires |a| == |b|
    requires forall i :: 0 <= i < |a| ==> a[i].role == b[i].role && a[i].content == b[i].content
    ensures Preimage(a) == Preimage(b)
    ensures Key(a, hash) == Key(b, hash)
    decreases |a|
  {
    if |a| > 0 {
      KeyIgnoresTimestamps(a[..|a| - 1], b[..|b| - 1], hash);
    }
  }

  /** Two keys are equal exactly when the digests are: the hex rendering
      loses nothing. */
  lemma KeysCompareDigests(a: seq<Message>, b: seq<Message>, hash: string -> Digest)
    ensures Key(a, hash) == Key(b, hash) <==> hash(Preimage(a)) == hash(Preimage(b))
  {
    if Key(a, hash) == Key(b, hash) {
      HexRoundTrip(hash(Preimage(a)));
      HexRoundTrip(hash(Preimage(b)));
    }
  }

  /** Nothing separates one role or content from the next, so different
      conversations can feed the hash the same text and share a key, under
      every hash function. */
  lemma NoSeparatorCollision(hash: string -> Digest)
    ensures var a := [Message("user", "hi", 0), Message("assistant", "", 0)];
      var b := [Message("user", "hiassistant", 0)];
      a != b && Key(a, hash) == Key(b, hash)
  {
    var a := [Message("user", "hi", 0), Message("assistant", "", 0)];
    var b := [Message("user", "hiassistant", 0)];
    assert a[..1][..0] == [] && b[..0] == [];
    assert Preimage(a[..1]) == "user" + "hi";
    assert Preimage(a) == "user" + "hi" + "assistant" + "";
    assert Preimage(b) == "user" + "hiassistant";
    assert Preimage(a) == Preimage(b);
  }
}

=== FILE: catalog.dfy ===
/** The chat client's side of MCP (internal/chatbot/chatbot.go): connecting
    the configured servers into a registry (initializeMCP), collecting the
    tool catalog from every registered server (refreshMCPTools), and routing
    one tool call to the server that listed the tool (invokeMCPTool). */
module Catalog {
  import opened Errors
  import opened Protocol
  import Registry
  import Stdio
  import WebSocket
  import Http
  import opened Clients

  /** The registry of connected servers, keyed by server name. */
  type Servers = Registry.Registry<Client>

  /** Every client is registered under its own name, as initializeMCP
      registers each server under the script path or URL it was created
      with. */
  predicate NamesMatch(reg: Servers) {
    forall n :: n in reg ==> Name(reg[n]) == n
  }

  /** Every tool of the catalog names a registered server. */
  predicate Served(catalog: seq<Tool>, reg: Servers) {
    forall i :: 0 <= i < |catalog| ==> catalog[i].serverName in reg
  }

  predicate Distinct(names: seq<string>) {
    forall i, j :: 0 <= i < j < |names| ==> names[i] != names[j]
  }

  /** The position of the first tool with the given name: the catalog is
      searched front to back and the search stops at the first match. */
  function FirstMatch(catalog: seq<Tool>, name: string): (r: Option<nat>)
    ensures r.Some? ==>
      && r.value < |catalog| && catalog[r.value].name == name
      && forall j :: 0 <= j < r.value ==> catalog[j].name != name
    ensures r.None? <==> forall j :: 0 <= j < |catalog| ==> catalog[j].name != name
    decreases |catalog|
  {
    if |catalog| == 0 then None
    else if catalog[0].name == name then Some(0)
    else match FirstMatch(catalog[1..], name)
      case None => None
      case Some(i) => Some(i + 1)
  }

  /** Tools appended behind a match are never found by the search. */
  lemma {:induction false} FirstMatchIgnoresLater(catalog: seq<Tool>, more: seq<Tool>, name: string)
    requires FirstMatch(catalog, name).Some?
    ensures FirstMatch(catalog + more, name) == FirstMatch(catalog, name)
    decreases |catalog|
  {
    if catalog[0].name != name {
      FirstMatchIgnoresLater(catalog[1..], more, name);
      assert (catalog + more)[1..] == catalog[1..] + more;
    }
  }

  /** What invoking a tool did: the registry afterwards (the called client
      has taken a request id), the server called, if any, and the result. */
  datatype Invoked = Invoked(registry: Servers, server: Option<string>, result: Result<CallToolResult>)

  /** invokeMCPTool: the tool is looked up in the catalog; the first entry
      with that name decides the server, and a missing server fails at once
      without looking at later entries; an unknown tool fails; otherwise the
      call goes to that server and a failure is wrapped with the tool's
      name. */
  function InvokeTool(catalog: seq<Tool>, reg: Servers, name: string, arguments: Json, remote: Remote<CallToolResult>): (v: Invoked)
    ensures FirstMatch(catalog, name).None? ==> v == Invoked(reg, None, Err(ToolNotFound(name)))
    ensures FirstMatch(catalog, name).Some? && catalog[FirstMatch(catalog, name).value].serverName !in reg ==>
      v == Invoked(reg, None, Err(ServerNotFound(catalog[FirstMatch(catalog, name).value].serverName, name)))
    ensures FirstMatch(catalog, name).Some? && catalog[FirstMatch(catalog, name).value].serverName in reg ==>
      v.server == Some(catalog[FirstMatch(catalog, name).value].serverName)
    ensures v.server.Some? ==>
      && FirstMatch(catalog, name).Some?
      && v.server.value == catalog[FirstMatch(catalog, name).value].serverName
      && v.server.value in reg
    ensures v.server.Some? ==>
      var x := CallTool(reg[v.server.value], name, arguments, remote);
      && v.registry == reg[v.server.value := x.client]
      && (x.result.Ok? ==> v.result == x.result)
      && (x.result.Err? ==> v.result == Err(Wrapped("failed to call tool " + name, x.result.error)))
    ensures v.registry.Keys == reg.Keys
    ensures NamesMatch(reg) ==> NamesMatch(v.registry)
  {
    match FirstMatch(catalog, name)
    case None => Invoked(reg, None, Err(ToolNotFound(name)))
    case Some(i) =>
      var server := catalog[i].serverName;
      if server !in reg then Invoked(reg, None, Err(ServerNotFound(server, name)))
      else
        var x := CallTool(reg[server], name, arguments, remote);
        var result := if x.result.Ok? then x.result else Err(Wrapped("failed to call tool " + name, x.result.error));
        Invoked(reg[server := x.client], Some(server), result)
  }

  /** A tool listed twice is always served by its first listing. */
  lemma ShadowedToolsIgnored(catalog: seq<Tool>, more: seq<Tool>, reg: Servers, name: string, arguments: Json, remote: Remote<CallToolResult>)
    requires FirstMatch(catalog, name).Some?
    ensures InvokeTool(catalog + more, reg, name, arguments, remote) == InvokeTool(catalog, reg, name, arguments, remote)
  {
    FirstMatchIgnoresLater(catalog, more, name);
    var i := FirstMatch(catalog, name).value;
    assert (catalog + more)[i] == catalog[i];
  }

  /** When every tool of the catalog names a registered server, as after a
      refresh, invoking a tool never fails with "server not found": a
      listed tool always reaches its server. */
  lemma ServedToolsReachTheirServer(catalog: seq<Tool>, reg: Servers, name: string, arguments: Json, remote: Remote<CallToolResult>)
    requires Served(catalog, reg)
    ensures var v := InvokeTool(catalog, reg, name, arguments, remote);
      && (v.server.Some? <==> exists i :: 0 <= i < |catalog| && catalog[i].name == name)
      && (v.result.Err? ==> !v.result.error.ServerNotFound?)
  {
    var v := InvokeTool(catalog, reg, name, arguments, remote);
    var m := FirstMatch(catalog, name);
    if m.Some? {
      assert catalog[m.value].serverName in reg;
    }
  }

  /** The tools one client contributes to the catalog: its list, or nothing
      when listing fails. */
  function Listed(c: Client, remote: Remote<ListToolsResult>): (tools: seq<Tool>)
    ensures forall i :: 0 <= i < |tools| ==> tools[i].serverName == Name(c)
    ensures ListTools(c, remote).result.Err? ==> tools == []
  {
    var x := ListTools(c, remote);
    if x.result.Ok? then x.result.value else []
  }

  /** Reference catalog: each named server's contribution, in order, all
      read from the registry as it was before any listing. */
  function Snapshot(order: seq<string>, reg: Servers, remote: Remote<ListToolsResult>): seq<Tool>
    decreases |order|
  {
    if |order| == 0 then []
    else (if order[0] in reg then Listed(reg[order[0]], remote) else []) + Snapshot(order[1..], reg, remote)
  }

  /** The loop of refreshMCPTools: list the tools of each client in turn,
      skip a client whose listing fails, and keep the client's new state
      (its request counter has moved). */
  function Gather(order: seq<string>, reg: Servers, remote: Remote<ListToolsResult>): (g: (seq<Tool>, Servers))
    ensures g.1.Keys == reg.Keys
    ensures forall n :: n in reg && n !in order ==> g.1[n] == reg[n]
    ensures forall n :: n in reg ==> Accepting(g.1[n]) == Accepting(reg[n])
    ensures NamesMatch(reg) ==> NamesMatch(g.1)
    ensures NamesMatch(reg) ==> forall i :: 0 <= i < |g.0| ==> g.0[i].serverName in order && g.0[i].serverName in reg
    ensures Distinct(order) ==> forall n :: n in reg && n in order ==> g.1[n] == ListTools(reg[n], remote).client
    decreases |order|
  {
    if |order| == 0 then ([], reg)
    else
      DistinctTail(order);
      if order[0] !in reg then Gather(order[1..], reg, remote)
      else
        var x := ListTools(reg[order[0]], remote);
        var rest := Gather(order[1..], reg[order[0] := x.client], remote);
        (Listed(reg[order[0]], remote) + rest.0, rest.1)
  }

  /** A name list without repeats stays so without its head, and its head
      does not come again. */
  lemma DistinctTail(order: seq<string>)
    requires |order| > 0
    ensures forall n :: n in order <==> n == order[0] || n in order[1..]
    ensures Distinct(order) ==> Distinct(order[1..]) && order[0] !in order[1..]
  {
    assert order == [order[0]] + order[1..];
    if Distinct(order) {
      forall j | 0 <= j < |order[1..]|
        ensures order[1..][j] != order[0]
      {
        assert order[1..][j] == order[j + 1];
      }
    }
  }

  /** Changing a server that the rest of the walk does not visit does not
      change what the walk collects. */
  lemma {:induction false} SnapshotFrame(order: seq<string>, reg: Servers, n: string, c: Client, remote: Remote<ListToolsResult>)
    requires n !in order
    ensures Snapshot(order, reg[n := c], remote) == Snapshot(order, reg, remote)
    decreases |order|
  {
    if |order| > 0 {
      SnapshotFrame(order[1..], reg, n, c, remote);
    }
  }

  /** Visiting each server once, the catalog gathered is the snapshot: the
      ids the listings take do not change what any server contributes. */
  lemma {:induction false} GatherIsSnapshot(order: seq<string>, reg: Servers, remote: Remote<ListToolsResult>)
    requires Distinct(order)
    ensures Gather(order, reg, remote).0 == Snapshot(order, reg, remote)
    decreases |order|
  {
    if |order| > 0 {
      var rest := order[1..];
      DistinctTail(order);
      if order[0] in reg {
        var x := ListTools(reg[order[0]], remote);
        GatherIsSnapshot(rest, reg[order[0] := x.client], remote);
        SnapshotFrame(rest, reg, order[0], x.client, remote);
      } else {
        GatherIsSnapshot(rest, reg, remote);
      }
    }
  }

  /** refreshMCPTools: the catalog is rebuilt from scratch from every
      registered client, in the registry's enumeration order; it never
      reports an error. */
  method Refresh(reg: Servers, remote: Remote<ListToolsResult>) returns (catalog: seq<Tool>, reg': Servers, order: seq<string>, err: Option<Error>)
    ensures Registry.Enumerates(order, reg)
    ensures catalog == Snapshot(order, reg, remote)
    ensures reg'.Keys == reg.Keys
    ensures forall n :: n in reg ==> reg'[n] == ListTools(reg[n], remote).client
    ensures forall n :: n in reg ==> Accepting(reg'[n]) == Accepting(reg[n])
    ensures NamesMatch(reg) ==> NamesMatch(reg') && Served(catalog, reg')
    ensures err == None
  {
    var clients;
    order, clients := Registry.All(reg);
    assert Distinct(order);
    var g := Gather(order, reg, remote);
    GatherIsSnapshot(order, reg, remote);
    catalog, reg', err := g.0, g.1, None;
  }

  /** What connecting one configured server came to: a client ready to be
      registered, or the reason it was dropped together with the client
      closed after a failed initialize, if one was built. */
  datatype Connection = Registered(client: Client) | Dropped(closed: Option<Client>, reason: Error)

  /** One local server of initializeMCP: start `python3 <script>` under the
      script's own name, initialize it, and close it again if initialize
      fails. */
  function ConnectLocal(script: string, host: Stdio.Host, remote: Remote<InitializeResult>): (k: Connection)
    ensures k.Registered? ==> Name(k.client) == script && k.client.StdioTransport? && Accepting(k.client)
    ensures k.Registered? <==>
      && Stdio.New(script, script, true, host).client.Ok?
      && Initialize(StdioTransport(Stdio.New(script, script, true, host).client.value), remote).result.Ok?
    ensures k.Dropped? && k.closed.Some? ==> !Accepting(k.closed.value) && Name(k.closed.value) == script
    ensures Stdio.New(script, script, true, host).client.Err? ==> k == Dropped(None, Stdio.New(script, script, true, host).client.error)
    ensures Stdio.New(script, script, true, host).client.Ok? ==>
      var x := Initialize(StdioTransport(Stdio.New(script, script, true, host).client.value), remote);
      && (x.result.Ok? ==> k == Registered(x.client))
      && (x.result.Err? ==> k == Dropped(Some(Close(x.client).0), x.result.error))
  {
    match Stdio.New(script, script, true, host).client
    case Err(e) => Dropped(None, e)
    case Ok(c) =>
      var x := Initialize(StdioTransport(c), remote);
      if x.result.Ok? then Registered(x.client) else Dropped(Some(Close(x.client).0), x.result.error)
  }

  /** One remote server of initializeMCP: a "ws://" or "wss://" URL gets a
      WebSocket client (`dial` is the dial's outcome), any other URL an HTTP
      client; then as for a local server. */
  function ConnectRemote(url: string, dial: Option<string>, remote: Remote<InitializeResult>): (k: Connection)
    ensures k.Registered? ==> Name(k.client) == url && Accepting(k.client)
    ensures k.Registered? ==> (k.client.WebSocketTransport? <==> IsWebSocketUrl(url)) && (k.client.HttpTransport? <==> !IsWebSocketUrl(url))
    ensures IsWebSocketUrl(url) && dial.Some? ==> k == Dropped(None, DialFailed(dial.value))
    ensures !IsWebSocketUrl(url) ==>
      (k.Registered? <==> Initialize(HttpTransport(Http.HttpClient(url, url, 0)), remote).result.Ok?)
    ensures k.Dropped? && k.closed.Some? ==> Name(k.closed.value) == url && (Accepting(k.closed.value) <==> k.closed.value.HttpTransport?)
    ensures IsWebSocketUrl(url) && dial.None? ==>
      var x := Initialize(WebSocketTransport(WebSocket.WebSocketClient(url, url, 0, false)), remote);
      && (x.result.Ok? ==> k == Registered(x.client))
      && (x.result.Err? ==> k == Dropped(Some(Close(x.client).0), x.result.error))
    ensures !IsWebSocketUrl(url) ==>
      var x := Initialize(HttpTransport(Http.HttpClient(url, url, 0)), remote);
      && (x.result.Ok? ==> k == Registered(x.client))
      && (x.result.Err? ==> k == Dropped(Some(Close(x.client).0), x.result.error))
  {
    var built: Result<Client> :=
      if IsWebSocketUrl(url) then
        match WebSocket.New(url, url, true, dial).client
        case Ok(w) => Ok(WebSocketTransport(w))
        case Err(e) => Err(e)
      else
        match Http.New(url, url, true)
        case Ok(h) => Ok(HttpTransport(h))
        case Err(e) => Err(e);
    match built
    case Err(e) => Dropped(None, e)
    case Ok(c) =>
      var x := Initialize(c, remote);
      if x.result.Ok? then Registered(x.client) else Dropped(Some(Close(x.client).0), x.result.error)
  }

  /** The registrations made by the local-server loop, in order. */
  function LocalRegistrations(scripts: seq<string>, hosts: string -> Stdio.Host, remote: Remote<InitializeResult>): (regs: seq<(string, Client)>)
    ensures forall i :: 0 <= i < |regs| ==> Name(regs[i].1) == regs[i].0 && regs[i].1.StdioTransport? && Accepting(regs[i].1)
    ensures forall i :: 0 <= i < |regs| ==> ConnectLocal(regs[i].0, hosts(regs[i].0), remote) == Registered(regs[i].1)
    decreases |scripts|
  {
    if |scripts| == 0 then []
    else
      var head := match ConnectLocal(scripts[0], hosts(scripts[0]), remote)
        case Registered(c) => [(scripts[0], c)]
        case Dropped(_, _) => [];
      head + LocalRegistrations(scripts[1..], hosts, remote)
  }

  /** The registrations made by the remote-server loop, in order. */
  function RemoteRegistrations(urls: seq<string>, dials: string -> Option<string>, remote: Remote<InitializeResult>): (regs: seq<(string, Client)>)
    ensures forall i :: 0 <= i < |regs| ==> Name(regs[i].1) == regs[i].0 && Accepting(regs[i].1)
    ensures forall i :: 0 <= i < |regs| ==> ConnectRemote(regs[i].0, dials(regs[i].0), remote) == Registered(regs[i].1)
    decreases |urls|
  {
    if |urls| == 0 then []
    else
      var head := match ConnectRemote(urls[0], dials(urls[0]), remote)
        case Registered(c) => [(urls[0], c)]
        case Dropped(_, _) => [];
      head + RemoteRegistrations(urls[1..], dials, remote)
  }

  /** A script path is registered exactly when its server starts and
      initializes. */
  lemma {:induction false} LocalNames(scripts: seq<string>, hosts: string -> Stdio.Host, remote: Remote<InitializeResult>)
    ensures Registry.Names(LocalRegistrations(scripts, hosts, remote))
      == set s | s in scripts && ConnectLocal(s, hosts(s), remote).Registered?
    decreases |scripts|
  {
    var regs := LocalRegistrations(scripts, hosts, remote);
    if |scripts| == 0 {
      assert Registry.Names(regs) == {};
    } else {
      var rest := scripts[1..];
      var tail := LocalRegistrations(rest, hosts, remote);
      LocalNames(rest, hosts, remote);
      var k := ConnectLocal(scripts[0], hosts(scripts[0]), remote);
      var head := if k.Registered? then [(scripts[0], k.client)] else [];
      assert regs == head + tail;
      NamesConcat(head, tail);
      assert Registry.Names(head) == if k.Registered? then {scripts[0]} else {};
      assert forall s :: s in scripts <==> s == scripts[0] || s in rest;
    }
  }

  /** A URL is registered exactly when its server connects and
      initializes. */
  lemma {:induction false} RemoteNames(urls: seq<string>, dials: string -> Option<string>, remote: Remote<InitializeResult>)
    ensures Registry.Names(RemoteRegistrations(urls, dials, remote))
      == set u | u in urls && ConnectRemote(u, dials(u), remote).Registered?
    decreases |urls|
  {
    var regs := RemoteRegistrations(urls, dials, remote);
    if |urls| == 0 {
      assert Registry.Names(regs) == {};
    } else {
      var rest := urls[1..];
      var tail := RemoteRegistrations(rest, dials, remote);
      RemoteNames(rest, dials, remote);
      var k := ConnectRemote(urls[0], dials(urls[0]), remote);
      var head := if k.Registered? then [(urls[0], k.client)] else [];
      assert regs == head + tail;
      NamesConcat(head, tail);
      assert Registry.Names(head) == if k.Registered? then {urls[0]} else {};
      assert forall u :: u in urls <==> u == urls[0] || u in rest;
    }
  }

  lemma NamesConcat(a: seq<(string, Client)>, b: seq<(string, Client)>)
    ensures Registry.Names(a + b) == Registry.Names(a) + Registry.Names(b)
  {
    forall n | n in Registry.Names(a + b)
      ensures n in Registry.Names(a) + Registry.Names(b)
    {
      var i :| 0 <= i < |a + b| && (a + b)[i].0 == n;
      if i >= |a| {
        assert b[i - |a|].0 == n;
      }
    }
    forall n | n in Registry.Names(b)
      ensures n in Registry.Names(a + b)
    {
      var i :| 0 <= i < |b| && b[i].0 == n;
      assert (a + b)[|a| + i].0 == n;
    }
    forall n | n in Registry.Names(a)
      ensures n in Registry.Names(a + b)
    {
      var i :| 0 <= i < |a| && a[i].0 == n;
      assert (a + b)[i].0 == n;
    }
  }

  /** Registering only clients under their own names keeps NamesMatch. */
  lemma NamesMatchAfterRegistrations(regs: seq<(string, Client)>)
    requires forall i :: 0 <= i < |regs| ==> Name(regs[i].1) == regs[i].0
    ensures NamesMatch(Registry.RegisterAll(Registry.Empty(), regs))
  {
    var reg := Registry.RegisterAll(Registry.Empty(), regs);
    forall n | n in reg
      ensures Name(reg[n]) == n
    {
      Registry.GetAfterRegistrations(regs, n);
      Registry.LastBindingIsARegistration(regs, n);
    }
  }

  /** The registry initializeMCP builds before any tool is listed: the
      local registrations, then the remote ones. */
  function Connected(scripts: seq<string>, urls: seq<string>, hosts: string -> Stdio.Host, dials: string -> Option<string>,
                     initRemote: Remote<InitializeResult>): Servers
  {
    Registry.RegisterAll(Registry.Empty(), LocalRegistrations(scripts, hosts, initRemote) + RemoteRegistrations(urls, dials, initRemote))
  }

  /** initializeMCP: register every local server that starts and
      initializes, then every remote server that connects and initializes
      (a later registration under the same name replaces an earlier one),
      then refresh the catalog. It never reports an error. */
  method InitializeMcp(
    scripts: seq<string>, urls: seq<string>,
    hosts: string -> Stdio.Host, dials: string -> Option<string>,
    initRemote: Remote<InitializeResult>, listRemote: Remote<ListToolsResult>)
    returns (reg: Servers, catalog: seq<Tool>, order: seq<string>, err: Option<Error>)
    ensures reg.Keys ==
      (set s | s in scripts && ConnectLocal(s, hosts(s), initRemote).Registered?)
      + (set u | u in urls && ConnectRemote(u, dials(u), initRemote).Registered?)
    ensures NamesMatch(reg) && Served(catalog, reg)
    ensures forall n :: n in reg ==> Accepting(reg[n])
    ensures Registry.Enumerates(order, reg)
    ensures var reg0 := Connected(scripts, urls, hosts, dials, initRemote);
      && catalog == Snapshot(order, reg0, listRemote)
      && reg.Keys == reg0.Keys
      && forall n :: n in reg0 ==> reg[n] == ListTools(reg0[n], listRemote).client
    ensures err == None
  {
    var local := LocalRegistrations(scripts, hosts, initRemote);
    var remote := RemoteRegistrations(urls, dials, initRemote);
    var regs := local + remote;
    var reg0 := Registry.RegisterAll(Registry.Empty(), regs);
    NamesConcat(local, remote);
    LocalNames(scripts, hosts, initRemote);
    RemoteNames(urls, dials, initRemote);
    Registry.KeysAreNames(regs);
    NamesMatchAfterRegistrations(regs);
    forall n | n in reg0
      ensures Accepting(reg0[n])
    {
      Registry.GetAfterRegistrations(regs, n);
      Registry.LastBindingIsARegistration(regs, n);
    }
    catalog, reg, order, err := Refresh(reg0, listRemote);
  }

  /** ClientRegistry.Close over the three transports: every client's Close
      returns nil, so closing the registry never fails; afterwards only the
      HTTP clients still accept requests, and every server stays
      registered. */
  method CloseServers(reg: Servers) returns (reg': Servers, err: Option<Error>)
    ensures err == None
    ensures reg'.Keys == reg.Keys
    ensures forall n :: n in reg ==> (Accepting(reg'[n]) <==> reg[n].HttpTransport?)
    ensures forall n :: n in reg ==> Name(reg'[n]) == Name(reg[n])
  {
    var order;
    reg', err, order := Registry.CloseAll(reg, Close);
  }
}

=== FILE: chat.dfy ===
/** The chat loop's state changes (internal/chatbot/chatbot.go): sendMessage,
    with its response cache, and handleCommand. The ChatBot is an immutable
    value; each operation returns the next one. The clock, SHA-256, the
    environment's API key, the MCP servers, the Anthropic API and the other
    three backends are parameters. */
module Chat {
  import opened Errors
  import opened Protocol
  import opened Session
  import Cache
  import Clients
  import Registry
  import Catalog
  import Orchestrator

  datatype Config = Config(backend: string, ollamaModel: string, mcpEnabled: bool)

  /** The chat bot's state: its configuration, the current session, the
      response cache (key to reply), the MCP registry (None until MCP is
      initialized) and the tool catalog. */
  datatype Bot = Bot(config: Config, session: Session, cache: map<string, string>,
                     registry: Option<Catalog.Servers>, catalog: seq<Tool>)

  /** Everything outside the bot that a message can reach. `other` answers
      for the Ollama, Grok and OpenAI backends. */
  datatype World = World(
    hash: string -> Cache.Digest,
    apiKey: string,
    remote: Clients.Remote<CallToolResult>,
    script: seq<Orchestrator.BackendReply>,
    other: (string, seq<Message>) -> Result<string>)

  /** What sending one message did: the next state, the outcome and whether
      a backend was asked at all. */
  datatype Sent = Sent(bot: Bot, outcome: Orchestrator.Outcome, asked: bool)

  /** The session's messages as the Anthropic API receives them. */
  function ApiMessages(messages: seq<Message>): (m: seq<Orchestrator.ApiMessage>)
    ensures |m| == |messages|
    ensures forall i :: 0 <= i < |messages| ==> m[i] == Orchestrator.ApiMessage(messages[i].role, Orchestrator.Plain(messages[i].content))
  {
    seq(|messages|, i requires 0 <= i < |messages| => Orchestrator.ApiMessage(messages[i].role, Orchestrator.Plain(messages[i].content)))
  }

  function Servers(bot: Bot): Catalog.Servers {
    if bot.registry.Some? then bot.registry.value else map[]
  }

  /** The backend switch of sendMessage. */
  function Ask(bot: Bot, messages: seq<Message>, world: World): (r: (Orchestrator.Outcome, Catalog.Servers))
    ensures !IsBackend(bot.session.backend) ==> r == (Orchestrator.Failure(UnknownBackend(bot.session.backend)), Servers(bot))
    ensures bot.session.backend != Anthropic ==> r.1 == Servers(bot)
    ensures r.1.Keys == Servers(bot).Keys
    ensures bot.session.backend == Anthropic ==>
      var t := Orchestrator.CallAnthropic(Orchestrator.Settings(world.apiKey, bot.config.mcpEnabled), ApiMessages(messages),
                                          bot.catalog, Servers(bot), world.remote, world.script);
      r == (t.outcome, t.registry)
    ensures IsBackend(bot.session.backend) && bot.session.backend != Anthropic ==>
      && (world.other(bot.session.backend, messages).Ok? ==> r.0 == Orchestrator.Answer(world.other(bot.session.backend, messages).value))
      && (world.other(bot.session.backend, messages).Err? ==> r.0 == Orchestrator.Failure(world.other(bot.session.backend, messages).error))
  {
    var backend := bot.session.backend;
    if backend == Anthropic then
      var settings := Orchestrator.Settings(world.apiKey, bot.config.mcpEnabled);
      var t := Orchestrator.CallAnthropic(settings, ApiMessages(messages), bot.catalog, Servers(bot), world.remote, world.script);
      (t.outcome, t.registry)
    else if backend == Ollama || backend == Grok || backend == OpenAI then
      match world.other(backend, messages)
      case Ok(text) => (Orchestrator.Answer(text), Servers(bot))
      case Err(e) => (Orchestrator.Failure(e), Servers(bot))
    else (Orchestrator.Failure(UnknownBackend(backend)), Servers(bot))
  }

  /** sendMessage: the user's message is appended first; a cached reply for
      the conversation so far is appended and returned without asking any
      backend; otherwise the session's backend is asked, and only a reply
      is cached and appended; on any failure the user's message stays the
      last one. */
  function SendMessage(bot: Bot, text: string, now: int, world: World): (s: Sent)
    ensures var asked := bot.session.messages + [Message(User, text, now)];
      && |s.bot.session.messages| >= |asked|
      && s.bot.session.messages[..|asked|] == asked
    ensures var asked := bot.session.messages + [Message(User, text, now)];
      var key := Cache.Key(asked, world.hash);
      key in bot.cache ==>
        s == Sent(bot.(session := bot.session.(messages := asked + [Message(Assistant, bot.cache[key], now)])),
                  Orchestrator.Answer(bot.cache[key]), false)
    ensures s.outcome.Answer? ==>
      var key := Cache.Key(bot.session.messages + [Message(User, text, now)], world.hash);
      && s.bot.session.messages == bot.session.messages + [Message(User, text, now), Message(Assistant, s.outcome.text, now)]
      && key in s.bot.cache && s.bot.cache[key] == s.outcome.text
    ensures !s.outcome.Answer? ==>
      && s.bot.session.messages == bot.session.messages + [Message(User, text, now)]
      && s.bot.cache == bot.cache
    ensures s.bot.config == bot.config && s.bot.catalog == bot.catalog
    ensures s.bot.session.backend == bot.session.backend && s.bot.session.id == bot.session.id
    ensures var asked := bot.session.messages + [Message(User, text, now)];
      var bot1 := bot.(session := bot.session.(messages := asked));
      Cache.Key(asked, world.hash) !in bot.cache ==>
        && s.outcome == Ask(bot1, asked, world).0
        && s.asked == IsBackend(bot.session.backend)
        && s.bot.registry == (if bot.registry.Some? then Some(Ask(bot1, asked, world).1) else None)
    ensures !IsBackend(bot.session.backend) && Cache.Key(bot.session.messages + [Message(User, text, now)], world.hash) !in bot.cache ==>
      s.outcome == Orchestrator.Failure(UnknownBackend(bot.session.backend)) && s.bot == bot.(session := bot.session.(messages := bot.session.messages + [Message(User, text, now)]))
  {
    var asked := bot.session.messages + [Message(User, text, now)];
    var key := Cache.Key(asked, world.hash);
    if key in bot.cache then
      var reply := bot.cache[key];
      Sent(bot.(session := bot.session.(messages := asked + [Message(Assistant, reply, now)])), Orchestrator.Answer(reply), false)
    else
      var bot1 := bot.(session := bot.session.(messages := asked));
      var answer := Ask(bot1, asked, world);
      var bot2 := if bot.registry.Some? then bot1.(registry := Some(answer.1)) else bot1;
      match answer.0
      case Answer(reply) =>
        Sent(bot2.(cache := bot.cache[key := reply], session := bot2.session.(messages := asked + [Message(Assistant, reply, now)])),
             answer.0, IsBackend(bot.session.backend))
      case _ => Sent(bot2, answer.0, IsBackend(bot.session.backend))
  }

  /** A reply is remembered: asking again with the same conversation,
      whatever the timestamps, is answered from the cache without asking a
      backend. */
  lemma RepliesAreCached(bot: Bot, text: string, now: int, world: World, later: int, world': World)
    requires world'.hash == world.hash
    requires SendMessage(bot, text, now, world).outcome.Answer?
    ensures var s := SendMessage(bot, text, now, world);
      var b := bot.(cache := s.bot.cache, registry := s.bot.registry);
      SendMessage(b, text, later, world') ==
        Sent(b.(session := b.session.(messages := bot.session.messages + [Message(User, text, later), Message(Assistant, s.outcome.text, later)])),
             s.outcome, false)
  {
    var asked := bot.session.messages + [Message(User, text, now)];
    var asked' := bot.session.messages + [Message(User, text, later)];
    Cache.KeyIgnoresTimestamps(asked, asked', world.hash);
  }

  /** A message the cache cannot answer, sent to the Anthropic backend whose
      replies settle after k rounds of tool use, is answered by the final
      reply's first text block, and that answer (if any) is cached. */
  lemma AnthropicTurnAnswers(bot: Bot, text: string, now: int, world: World)
    requires bot.session.backend == Anthropic && world.apiKey != "" && Orchestrator.Settles(world.script)
    requires Cache.Key(bot.session.messages + [Message(User, text, now)], world.hash) !in bot.cache
    ensures var s := SendMessage(bot, text, now, world);
      var last := world.script[|world.script| - 1].response;
      && s.asked
      && s.outcome == Orchestrator.Finish(last, if |world.script| == 1 then EmptyResponse else EmptyAfterToolUse)
      && (s.outcome.Answer? ==> s.bot.cache == bot.cache[Cache.Key(bot.session.messages + [Message(User, text, now)], world.hash) := s.outcome.text])
  {
    var asked := bot.session.messages + [Message(User, text, now)];
    var bot1 := bot.(session := bot.session.(messages := asked));
    Orchestrator.ModelCallsPerTurn(Orchestrator.Settings(world.apiKey, bot.config.mcpEnabled), ApiMessages(asked),
                                   bot.catalog, Servers(bot1), world.remote, world.script);
  }

  /** unicode.IsSpace. */
  predicate IsSpace(c: char) {
    || c == '\t' || c == '\n' || c == '\U{B}' || c == '\U{C}' || c == '\r' || c == ' '
    || c == '\U{85}' || c == '\U{A0}' || c == '\U{1680}'
    || ('\U{2000}' <= c <= '\U{200A}')
    || c == '\U{2028}' || c == '\U{2029}' || c == '\U{202F}' || c == '\U{205F}' || c == '\U{3000}'
  }

  predicate Spaceless(w: string) {
    forall i :: 0 <= i < |w| ==> !IsSpace(w[i])
  }

  /** The longest prefix without a space. */
  function Word(s: string): (w: string)
    ensures |w| <= |s| && w == s[..|w|] && Spaceless(w)
    ensures |w| < |s| ==> IsSpace(s[|w|])
    decreases |s|
  {
    if |s| == 0 || IsSpace(s[0]) then [] else [s[0]] + Word(s[1..])
  }

  /** strings.Fields: the maximal runs of non-space characters, in order. */
  function Fields(s: string): (fields: seq<string>)
    ensures forall i :: 0 <= i < |fields| ==> |fields[i]| > 0 && Spaceless(fields[i])
    decreases |s|
  {
    if |s| == 0 then []
    else if IsSpace(s[0]) then Fields(s[1..])
    else
      var w := Word(s);
      [w] + Fields(s[|w|..])
  }

  /** Words joined by single spaces. */
  function Join(words: seq<string>): string
    decreases |words|
  {
    if |words| == 0 then []
    else if |words| == 1 then words[0]
    else words[0] + " " + Join(words[1..])
  }

  lemma {:induction false} WordOfJoined(w: string, rest: string)
    requires Spaceless(w)
    requires |rest| == 0 || IsSpace(rest[0])
    ensures Word(w + rest) == w
    decreases |w|
  {
    if |w| > 0 {
      WordOfJoined(w[1..], rest);
      assert (w + rest)[1..] == w[1..] + rest;
    } else {
      assert w + rest == rest;
    }
  }

  /** Fields splits back what Join put together: the partner of Join for
      non-empty words without spaces. */
  lemma {:induction false} FieldsOfJoin(words: seq<string>)
    requires forall i :: 0 <= i < |words| ==> |words[i]| > 0 && Spaceless(words[i])
    ensures Fields(Join(words)) == words
    decreases |words|
  {
    if |words| == 1 {
      var s := Join(words);
      WordOfJoined(words[0], "");
      assert words[0] + "" == words[0];
      assert s[|words[0]|..] == [];
    } else if |words| > 1 {
      var rest := Join(words[1..]);
      var s := words[0] + " " + rest;
      assert Join(words) == s;
      WordOfJoined(words[0], " " + rest);
      assert words[0] + (" " + rest) == s;
      FieldsOfJoin(words[1..]);
      assert s[|words[0]|..] == " " + rest;
      assert (" " + rest)[1..] == rest;
      assert !IsSpace(s[0]);
    }
  }

  /** Leading, trailing and repeated spaces make no fields. */
  lemma FieldsSkipsSpaces(s: string)
    requires |s| > 0 && IsSpace(s[0])
    ensures Fields(s) == Fields(s[1..])
  {
  }

  const SwitchUsage := "usage: /switch <backend> (ollama|anthropic|grok|openai)"
  const SetModelUsage := "usage: /set-ollama-model <model:version>"

  /** What handling a command did: the next state, whether to quit and the
      error to print. */
  datatype Handled = Handled(bot: Bot, quit: bool, err: Option<Error>)

  /** handleCommand. Commands that only print (/help, /mcp-list,
      /mcp-servers) change nothing; /list-ollama-models changes nothing and
      reports the failure of listing, `listFailure`; /new-session saves the
      old session (not modelled) and starts one on the configured backend,
      not the session's; /mcp-reload refreshes the catalog when MCP is
      initialized. */
  method HandleCommand(bot: Bot, cmd: string, now: int, listFailure: Option<string>, remote: Clients.Remote<ListToolsResult>)
    returns (h: Handled)
    ensures h.quit <==> |Fields(cmd)| > 0 && (Fields(cmd)[0] == "/quit" || Fields(cmd)[0] == "/exit")
    ensures |Fields(cmd)| == 0 ==> h == Handled(bot, false, None)
    ensures h.bot.session.messages == bot.session.messages || h.bot.session.messages == []
    ensures h.bot.cache == bot.cache
    ensures h.bot.session.backend != bot.session.backend ==>
      || (|Fields(cmd)| >= 2 && Fields(cmd)[0] == "/switch" && IsBackend(Fields(cmd)[1]) && h.bot.session.backend == Fields(cmd)[1])
      || (|Fields(cmd)| >= 1 && Fields(cmd)[0] == "/new-session" && h.bot.session.backend == bot.config.backend)
    ensures |Fields(cmd)| >= 1 && Fields(cmd)[0] == "/new-session" ==>
      h.bot.session.messages == [] && h.bot.session.backend == bot.config.backend && h.bot.session.startTime == now
    ensures |Fields(cmd)| >= 1 && Fields(cmd)[0] == "/new-session" ==>
      && h == Handled(bot.(session := h.bot.session), false, None)
      && NamedAfter(h.bot.session.id, SessionPrefix, now)
    ensures |Fields(cmd)| >= 1 && Fields(cmd)[0] == "/mcp-reload" && bot.config.mcpEnabled && bot.registry.Some? ==>
      && h.bot == bot.(registry := h.bot.registry, catalog := h.bot.catalog) && !h.quit && h.err == None
      && h.bot.registry.Some? && h.bot.registry.value.Keys == bot.registry.value.Keys
      && (exists order :: Registry.Enumerates(order, bot.registry.value) && h.bot.catalog == Catalog.Snapshot(order, bot.registry.value, remote))
      && forall n :: n in bot.registry.value ==> h.bot.registry.value[n] == Clients.ListTools(bot.registry.value[n], remote).client
    ensures |Fields(cmd)| >= 1 && Fields(cmd)[0] == "/mcp-reload" && (!bot.config.mcpEnabled || bot.registry.None?) ==>
      h == Handled(bot, false, None)
    ensures |Fields(cmd)| >= 1 && Fields(cmd)[0] == "/list-ollama-models" ==>
      h.bot == bot && !h.quit && (h.err.Some? <==> listFailure.Some?)
      && (listFailure.Some? ==> h.err == Some(ListModelsFailed(listFailure.value)))
    ensures |Fields(cmd)| >= 2 && Fields(cmd)[0] == "/set-ollama-model" ==>
      h == Handled(bot.(config := bot.config.(ollamaModel := Fields(cmd)[1])), false, None)
    ensures Fields(cmd) == ["/set-ollama-model"] ==> h == Handled(bot, false, Some(Usage(SetModelUsage)))
    ensures h.bot.config.backend == bot.config.backend && h.bot.config.mcpEnabled == bot.config.mcpEnabled
    ensures h.bot.config.ollamaModel != bot.config.ollamaModel ==>
      |Fields(cmd)| >= 2 && Fields(cmd)[0] == "/set-ollama-model" && h.bot.config.ollamaModel == Fields(cmd)[1]
    ensures |Fields(cmd)| >= 2 && Fields(cmd)[0] == "/switch" ==>
      if IsBackend(Fields(cmd)[1]) then h == Handled(bot.(session := bot.session.(backend := Fields(cmd)[1])), false, None)
      else h == Handled(bot, false, Some(UnknownBackend(Fields(cmd)[1])))
    ensures Fields(cmd) == ["/switch"] ==> h == Handled(bot, false, Some(Usage(SwitchUsage)))
    ensures |Fields(cmd)| > 0 && !(Fields(cmd)[0] in {"/quit", "/exit", "/new-session", "/switch", "/list-ollama-models", "/set-ollama-model", "/mcp-reload"}) ==>
      h == Handled(bot, false, None)
    ensures h.bot.registry.Some? <==> bot.registry.Some?
    ensures h.bot.registry.Some? ==> h.bot.registry.value.Keys == bot.registry.value.Keys
    ensures Catalog.NamesMatch(Servers(bot)) ==> Catalog.NamesMatch(Servers(h.bot)) && (h.bot.catalog == bot.catalog || Catalog.Served(h.bot.catalog, Servers(h.bot)))
  {
    var parts := Fields(cmd);
    if |parts| == 0 {
      return Handled(bot, false, None);
    }
    var verb := parts[0];
    if verb == "/quit" || verb == "/exit" {
      h := Handled(bot, true, None);
    } else if verb == "/new-session" {
      h := Handled(bot.(session := NewSession(bot.config.backend, now)), false, None);
    } else if verb == "/switch" {
      if |parts| < 2 {
        h := Handled(bot, false, Some(Usage(SwitchUsage)));
      } else if IsBackend(parts[1]) {
        h := Handled(bot.(session := bot.session.(backend := parts[1])), false, None);
      } else {
        h := Handled(bot, false, Some(UnknownBackend(parts[1])));
      }
    } else if verb == "/list-ollama-models" {
      h := Handled(bot, false, if listFailure.Some? then Some(ListModelsFailed(listFailure.value)) else None);
    } else if verb == "/set-ollama-model" {
      if |parts| < 2 {
        h := Handled(bot, false, Some(Usage(SetModelUsage)));
      } else {
        h := Handled(bot.(config := bot.config.(ollamaModel := parts[1])), false, None);
      }
    } else if verb == "/mcp-reload" {
      if !bot.config.mcpEnabled || bot.registry.None? {
        h := Handled(bot, false, None);
      } else {
        var catalog, reg, order, err := Catalog.Refresh(bot.registry.value, remote);
        h := Handled(bot.(registry := Some(reg), catalog := catalog), false, None);
      }
    } else {
      h := Handled(bot, false, None);
    }
  }
}

=== FILE: clients.dfy ===
/** The MCPClient interface of internal/mcp/client.go as a tagged variant
    over the three transports, with one dispatching function per interface
    method. */
module Clients {
  import opened Errors
  import opened Protocol
  import Stdio
  import WebSocket
  import Http

  datatype Client =
    | StdioTransport(stdio: Stdio.StdioClient)
    | WebSocketTransport(socket: WebSocket.WebSocketClient)
    | HttpTransport(http: Http.HttpClient)

  /** What the servers do with one request, per transport, given the name
      of the client that sends it. */
  datatype Remote<R> = Remote(
    stdio: (string, Request) -> Stdio.Wire<R>,
    socket: (string, Request) -> WebSocket.Wire<R>,
    web: (string, Http.Post) -> Http.Wire<R>)

  function Name(c: Client): string {
    match c
    case StdioTransport(s) => s.name
    case WebSocketTransport(w) => w.name
    case HttpTransport(h) => h.name
  }

  /** The client still sends requests: stdio and WebSocket until closed,
      HTTP always. */
  predicate Accepting(c: Client) {
    match c
    case StdioTransport(s) => !s.closed
    case WebSocketTransport(w) => !w.closed
    case HttpTransport(_) => true
  }

  predicate SameTransport(a: Client, b: Client) {
    (a.StdioTransport? && b.StdioTransport?)
    || (a.WebSocketTransport? && b.WebSocketTransport?)
    || (a.HttpTransport? && b.HttpTransport?)
  }

  /** Close never fails, on any transport; afterwards only an HTTP client
      still accepts requests. */
  function Close(c: Client): (r: (Client, Option<Error>))
    ensures r.1 == None
    ensures Name(r.0) == Name(c) && SameTransport(c, r.0)
    ensures Accepting(r.0) <==> c.HttpTransport?
  {
    match c
    case StdioTransport(s) => (StdioTransport(Stdio.Close(s).0), None)
    case WebSocketTransport(w) => (WebSocketTransport(WebSocket.Close(w).0), None)
    case HttpTransport(h) => (HttpTransport(Http.Close(h)), None)
  }

  /** Closing a closed client changes nothing. */
  lemma CloseIdempotent(c: Client)
    ensures Close(Close(c).0) == Close(c)
  {
  }

  function Initialize(c: Client, remote: Remote<InitializeResult>): (x: Exchange<Client, ServerInfo>)
    ensures Name(x.client) == Name(c) && SameTransport(c, x.client)
    ensures Accepting(x.client) == Accepting(c)
    ensures x.issued.Some? <==> Accepting(c)
    ensures x.issued.Some? ==> x.issued.value.methodName == MethodInitialize && x.issued.value.params.InitializeParams?
  {
    match c
    case StdioTransport(s) =>
      var x := Stdio.Initialize(s, req => remote.stdio(s.name, req));
      Exchange(StdioTransport(x.client), x.issued, x.result)
    case WebSocketTransport(w) =>
      var x := WebSocket.Initialize(w, req => remote.socket(w.name, req));
      Exchange(WebSocketTransport(x.client), x.issued, x.result)
    case HttpTransport(h) =>
      var x := Http.Initialize(h, post => remote.web(h.name, post));
      Exchange(HttpTransport(x.client), x.issued, x.result)
  }

  /** ListTools on any transport: every tool listed is tagged with the
      client's name. */
  function ListTools(c: Client, remote: Remote<ListToolsResult>): (x: Exchange<Client, seq<Tool>>)
    ensures Name(x.client) == Name(c) && SameTransport(c, x.client)
    ensures Accepting(x.client) == Accepting(c)
    ensures x.issued.Some? <==> Accepting(c)
    ensures x.issued.Some? ==> x.issued.value.methodName == MethodListTools && x.issued.value.params == NoParams
    ensures x.result.Ok? ==> forall i :: 0 <= i < |x.result.value| ==> x.result.value[i].serverName == Name(c)
  {
    match c
    case StdioTransport(s) =>
      var x := Stdio.ListTools(s, req => remote.stdio(s.name, req));
      Exchange(StdioTransport(x.client), x.issued, x.result)
    case WebSocketTransport(w) =>
      var x := WebSocket.ListTools(w, req => remote.socket(w.name, req));
      Exchange(WebSocketTransport(x.client), x.issued, x.result)
    case HttpTransport(h) =>
      var x := Http.ListTools(h, post => remote.web(h.name, post));
      Exchange(HttpTransport(x.client), x.issued, x.result)
  }

  /** CallTool on any transport: a client that no longer accepts requests
      fails without issuing one; otherwise exactly one tools/call request
      carrying the tool name and arguments is issued. */
  function CallTool(c: Client, toolName: string, arguments: Json, remote: Remote<CallToolResult>): (x: Exchange<Client, CallToolResult>)
    ensures Name(x.client) == Name(c) && SameTransport(c, x.client)
    ensures Accepting(x.client) == Accepting(c)
    ensures !Accepting(c) ==> x == Exchange(c, None, Err(Wrapped("call tool failed", ClientClosed)))
    ensures Accepting(c) ==>
      x.issued.Some? && x.issued.value.methodName == MethodCallTool
      && x.issued.value.params == CallToolParams(toolName, arguments)
  {
    match c
    case StdioTransport(s) =>
      var x := Stdio.CallTool(s, toolName, arguments, req => remote.stdio(s.name, req));
      Exchange(StdioTransport(x.client), x.issued, x.result)
    case WebSocketTransport(w) =>
      var x := WebSocket.CallTool(w, toolName, arguments, req => remote.socket(w.name, req));
      Exchange(WebSocketTransport(x.client), x.issued, x.result)
    case HttpTransport(h) =>
      var x := Http.CallTool(h, toolName, arguments, post => remote.web(h.name, post));
      Exchange(HttpTransport(x.client), x.issued, x.result)
  }

  /** The three transports take the same decision on the same delivered
      response: an RPC error fails with its code and message on all of
      them, a missing result is the zero value on all of them. */
  lemma SameDecisionOnEveryTransport<R>(
    s: Stdio.StdioClient, w: WebSocket.WebSocketClient, h: Http.HttpClient,
    methodName: string, params: Params, resp: Response<R>, zero: R)
    requires !s.closed && !w.closed
    ensures Stdio.Send(s, methodName, params, _ => Stdio.Line(resp), zero).result == Settle(resp, zero)
    ensures WebSocket.Send(w, methodName, params, _ => WebSocket.Frame(resp), zero).result == Settle(resp, zero)
    ensures Http.Send(h, methodName, params, _ => Http.Answered(Http.StatusOK, "", Http.Envelope(resp)), zero).result == Settle(resp, zero)
  {
  }

  /** initializeMCP's choice for a remote server URL: WebSocket for a
      "ws://" or "wss://" prefix, HTTP for anything else. */
  predicate IsWebSocketUrl(url: string) {
    "ws://" <= url || "wss://" <= url
  }
}

=== FILE: errors.dfy ===
/** Failure values of the MCP client layer and of the chat loop, and the
    text each one renders to (the source builds them with fmt.Errorf). */
module Errors {

  datatype Option<+T> = None | Some(value: T)

  datatype Result<+T> = Ok(value: T) | Err(error: Error)

  /** The three pipes of a stdio server process. */
  datatype Pipe = Stdin | Stdout | Stderr

  /** Every error the modelled code can return. A `cause` is the text of an
      error produced by code outside the model (the OS, a socket, the HTTP
      stack, the JSON codec). */
  datatype Error =
    | NilLogger
    | PipeFailed(pipe: Pipe, cause: string)
    | StartFailed(cause: string)
    | DialFailed(cause: string)
    | ClientClosed
    | EncodeRequestFailed(cause: string)
    | WriteFailed(cause: string)
    | ReadFailed(cause: string)
    | EndOfStream
    | DecodeResponseFailed(cause: string)
    | Rpc(code: int, message: string)
    | DecodeResultFailed(cause: string)
    | BuildRequestFailed(cause: string)
    | SendFailed(cause: string)
    | HttpStatus(status: int, body: string)
    | Wrapped(context: string, inner: Error)
    | CloseFailed(client: string, inner: Error)
    | ServerNotFound(server: string, tool: string)
    | ToolNotFound(tool: string)
    | ApiKeyMissing
    | Backend(message: string)
    | NoToolUseBlocks
    | EmptyResponse
    | EmptyAfterToolUse
    | UnknownBackend(name: string)
    | Usage(line: string)
    | ListModelsFailed(cause: string)

  function PipeName(p: Pipe): string {
    match p
    case Stdin => "stdin"
    case Stdout => "stdout"
    case Stderr => "stderr"
  }

  /** The message `err.Error()` returns for each error. */
  function Describe(e: Error): string {
    match e
    case NilLogger => "logger cannot be nil"
    case PipeFailed(p, cause) => "failed to create " + PipeName(p) + " pipe: " + cause
    case StartFailed(cause) => "failed to start Python process: " + cause
    case DialFailed(cause) => "failed to connect to WebSocket: " + cause
    case ClientClosed => "client is closed"
    case EncodeRequestFailed(cause) => "failed to marshal request: " + cause
    case WriteFailed(cause) => "failed to write request: " + cause
    case ReadFailed(cause) => "failed to read response: " + cause
    case EndOfStream => "EOF from MCP server"
    case DecodeResponseFailed(cause) => "failed to unmarshal response: " + cause
    case Rpc(code, message) => "RPC error " + Decimal(code) + ": " + message
    case DecodeResultFailed(cause) => "failed to unmarshal result: " + cause
    case BuildRequestFailed(cause) => "failed to create HTTP request: " + cause
    case SendFailed(cause) => "failed to send HTTP request: " + cause
    case HttpStatus(status, body) => "HTTP error " + Decimal(status) + ": " + body
    case Wrapped(context, inner) => context + ": " + Describe(inner)
    case CloseFailed(client, inner) => "failed to close client " + client + ": " + Describe(inner)
    case ServerNotFound(server, tool) => "server " + server + " not found for tool " + tool
    case ToolNotFound(tool) => "tool " + tool + " not found"
    case ApiKeyMissing => "ANTHROPIC_API_KEY not set"
    case Backend(message) => message
    case NoToolUseBlocks => "tool_use stop reason but no tool_use blocks found"
    case EmptyResponse => "empty response from Anthropic"
    case EmptyAfterToolUse => "empty response after tool use"
    case UnknownBackend(name) => "unknown backend: " + name
    case Usage(line) => line
    case ListModelsFailed(cause) => "failed to list Ollama models: " + cause
  }

  function DigitChar(d: nat): (c: char)
    requires d < 10
  {
    ('0' as int + d) as char
  }

  function Digits(n: nat): (s: string)
    decreases n
  {
    if n < 10 then [DigitChar(n)] else Digits(n / 10) + [DigitChar(n % 10)]
  }

  /** Base-10 rendering of an integer, as `%d` prints it. */
  function Decimal(n: int): string {
    if n < 0 then "-" + Digits(-n) else Digits(n)
  }

  function DigitValue(c: char): int {
    c as int - '0' as int
  }

  /** Reads back a string of decimal digits; the partner of `Digits`. */
  function ParseDigits(s: string): int {
    if |s| == 0 then 0 else ParseDigits(s[..|s| - 1]) * 10 + DigitValue(s[|s| - 1])
  }

  lemma {:induction false} DigitsRoundTrip(n: nat)
    ensures 0 < |Digits(n)|
    ensures forall i :: 0 <= i < |Digits(n)| ==> '0' <= Digits(n)[i] <= '9'
    ensures ParseDigits(Digits(n)) == n
    decreases n
  {
    if n < 10 {
      assert Digits(n) == [DigitChar(n)];
      assert Digits(n)[..0] == [];
    } else {
      DigitsRoundTrip(n / 10);
      var s := Digits(n);
      assert s == Digits(n / 10) + [DigitChar(n % 10)];
      assert s[..|s| - 1] == Digits(n / 10);
    }
  }

  /** `%d` writes no leading zero: the first digit is '0' only for zero,
      which is written as the single digit "0". */
  lemma {:induction false} DigitsNoLeadingZero(n: nat)
    ensures 0 < |Digits(n)|
    ensures Digits(n)[0] == '0' <==> n == 0
    ensures n == 0 ==> Digits(n) == "0"
    decreases n
  {
    if n >= 10 {
      DigitsNoLeadingZero(n / 10);
      assert Digits(n)[0] == Digits(n / 10)[0];
    }
  }
}

=== FILE: http.dfy ===
/** The HTTP transport (internal/mcp/http.go): one POST of one JSON-RPC
    request per call, no connection and no closed flag. The HTTP stack is
    replaced by a `Wire` function saying what happens to one POST. */
module Http {
  import opened Errors
  import opened Protocol

  const Version := ClientInfo("extrachat", "1.0.0")
  const RpcPath := "/rpc"
  const StatusOK := 200

  /** The client's state. The source sets no timeout on its HTTP client. */
  datatype HttpClient = HttpClient(name: string, baseUrl: string, lastId: int32)

  /** The POST a request becomes. */
  datatype Post = Post(verb: string, url: string, contentType: string, body: Request)

  /** Reading and decoding the body of a 200 answer. */
  datatype BodyRead<+R> = ReadError(cause: string) | Garbled(cause: string) | Envelope(response: Response<R>)

  /** What one POST meets: the request cannot be encoded, the HTTP request
      cannot be built, sending it fails, or an answer with a status arrives
      (`body` is the text read from a non-200 answer, `read` what reading a
      200 answer gives). */
  datatype Wire<+R> =
    | Unencodable(cause: string)
    | BadRequest(cause: string)
    | Unreachable(cause: string)
    | Answered(status: int, body: string, read: BodyRead<R>)

  /** NewHTTPClient: only a nil logger is refused; nothing is dialed. */
  function New(name: string, baseUrl: string, hasLogger: bool): (r: Result<HttpClient>)
    ensures r.Ok? <==> hasLogger
    ensures r.Ok? ==> r.value == HttpClient(name, baseUrl, 0)
    ensures r.Err? ==> r.error == NilLogger
  {
    if hasLogger then Ok(HttpClient(name, baseUrl, 0)) else Err(NilLogger)
  }

  /** Every request is POSTed as JSON to the base URL followed by "/rpc". */
  function PostFor(c: HttpClient, request: Request): (p: Post)
    ensures |p.url| == |c.baseUrl| + |RpcPath|
    ensures p.url[..|c.baseUrl|] == c.baseUrl && p.url[|c.baseUrl|..] == RpcPath
    ensures p.verb == "POST" && p.contentType == "application/json" && p.body == request
  {
    Post("POST", c.baseUrl + RpcPath, "application/json", request)
  }

  /** sendRequest: there is no closed check, so every call takes an id. */
  function Send<R>(c: HttpClient, methodName: string, params: Params, wire: Post -> Wire<R>, zero: R): (x: Exchange<HttpClient, R>)
    ensures x.client == c.(lastId := NextId(c.lastId))
    ensures x.issued == Some(Request(JsonRpcVersion, NextId(c.lastId) as int, methodName, params))
    ensures var w := wire(PostFor(c, x.issued.value));
      && (w.Answered? && w.status != StatusOK ==> x.result == Err(HttpStatus(w.status, w.body)))
      && (w.Answered? && w.status == StatusOK && w.read.Envelope? ==> x.result == Settle(w.read.response, zero))
      && (x.result.Ok? ==> w.Answered? && w.status == StatusOK && w.read.Envelope?)
  {
    var id := NextId(c.lastId);
    var request := Request(JsonRpcVersion, id as int, methodName, params);
    var result :=
      match wire(PostFor(c, request))
      case Unencodable(cause) => Err(EncodeRequestFailed(cause))
      case BadRequest(cause) => Err(BuildRequestFailed(cause))
      case Unreachable(cause) => Err(SendFailed(cause))
      case Answered(status, body, read) =>
        if status != StatusOK then Err(HttpStatus(status, body))
        else match read
          case ReadError(cause) => Err(ReadFailed(cause))
          case Garbled(cause) => Err(DecodeResponseFailed(cause))
          case Envelope(response) => Settle(response, zero);
    Exchange(c.(lastId := id), Some(request), result)
  }

  /** Initialize: an `initialize` request carrying this client's name and
      version; the reply's server info. */
  function Initialize(c: HttpClient, wire: Post -> Wire<InitializeResult>): (x: Exchange<HttpClient, ServerInfo>)
    ensures x.client == c.(lastId := NextId(c.lastId)) && x.issued == Some(Request(JsonRpcVersion, NextId(c.lastId) as int, MethodInitialize, InitializeParams(Version)))
    ensures x.result.Ok? ==> var w := wire(PostFor(c, x.issued.value));
      w.Answered? && w.status == StatusOK && w.read.Envelope? && Settle(w.read.response, NoInitializeResult) == Ok(InitializeResult(x.result.value))
    ensures x.result.Err? ==> x.result.error.Wrapped? && x.result.error.context == "initialize failed"
  {
    Initialized(Send(c, MethodInitialize, InitializeParams(Version), wire, NoInitializeResult))
  }

  /** ListTools: a `tools/list` request without params; the server's tools,
      in its order, each tagged with this client's name. */
  function ListTools(c: HttpClient, wire: Post -> Wire<ListToolsResult>): (x: Exchange<HttpClient, seq<Tool>>)
    ensures x.client == c.(lastId := NextId(c.lastId)) && x.issued == Some(Request(JsonRpcVersion, NextId(c.lastId) as int, MethodListTools, NoParams))
    ensures x.result.Ok? ==> forall i :: 0 <= i < |x.result.value| ==> x.result.value[i].serverName == c.name
    ensures x.result.Ok? ==> var w := wire(PostFor(c, x.issued.value));
      w.Answered? && w.status == StatusOK && w.read.Envelope? && Settle(w.read.response, NoToolList) == Ok(ListToolsResult(Infos(x.result.value)))
    ensures x.result.Err? ==> x.result.error.Wrapped? && x.result.error.context == "list tools failed"
  {
    ToolsListed(Send(c, MethodListTools, NoParams, wire, NoToolList), c.name)
  }

  /** CallTool: a `tools/call` request naming the tool and its arguments;
      the tool's result as the server sent it. */
  function CallTool(c: HttpClient, toolName: string, arguments: Json, wire: Post -> Wire<CallToolResult>): (x: Exchange<HttpClient, CallToolResult>)
    ensures x.client == c.(lastId := NextId(c.lastId)) && x.issued == Some(Request(JsonRpcVersion, NextId(c.lastId) as int, MethodCallTool, CallToolParams(toolName, arguments)))
    ensures x.result.Ok? ==> var w := wire(PostFor(c, x.issued.value));
      w.Answered? && w.status == StatusOK && w.read.Envelope? && Settle(w.read.response, NoCallToolResult) == x.result
    ensures x.result.Err? ==> x.result.error.Wrapped? && x.result.error.context == "call tool failed"
  {
    ToolCalled(Send(c, MethodCallTool, CallToolParams(toolName, arguments), wire, NoCallToolResult))
  }

  /** Close: there is nothing to release; the client is unchanged. */
  function Close(c: HttpClient): (r: HttpClient)
    ensures r == c
  {
    c
  }

  /** Close changes nothing, so a request after Close behaves exactly as
      it would have before. */
  lemma UsableAfterClose<R>(c: HttpClient, methodName: string, params: Params, wire: Post -> Wire<R>, zero: R)
    ensures Send(Close(c), methodName, params, wire, zero) == Send(c, methodName, params, wire, zero)
    ensures Send(Close(c), methodName, params, wire, zero).issued.Some?
  {
  }

  function Run<R>(c: HttpClient, methodName: string, params: Params, wires: seq<Post -> Wire<R>>, zero: R): (r: (HttpClient, seq<int>))
    decreases |wires|
  {
    if |wires| == 0 then (c, [])
    else
      var x := Send(c, methodName, params, wires[0], zero);
      var rest := Run(x.client, methodName, params, wires[1..], zero);
      (rest.0, (if x.issued.Some? then [x.issued.value.id] else []) + rest.1)
  }

  /** Every request takes the next id, whatever its outcome. */
  lemma {:induction false} RunTakesConsecutiveIds<R>(c: HttpClient, methodName: string, params: Params, wires: seq<Post -> Wire<R>>, zero: R)
    ensures Run(c, methodName, params, wires, zero).1 == IdsFrom(c.lastId, |wires|)
    decreases |wires|
  {
    if |wires| > 0 {
      var x := Send(c, methodName, params, wires[0], zero);
      RunTakesConsecutiveIds(x.client, methodName, params, wires[1..], zero);
    }
  }

  lemma FreshClientIdsStartAtOne<R>(name: string, baseUrl: string, methodName: string, params: Params, wires: seq<Post -> Wire<R>>, zero: R)
    requires |wires| <= MaxInt32 as int
    ensures var ids := Run(New(name, baseUrl, true).value, methodName, params, wires, zero).1;
      |ids| == |wires| && forall i :: 0 <= i < |ids| ==> ids[i] == i + 1
  {
    var c := New(name, baseUrl, true).value;
    RunTakesConsecutiveIds(c, methodName, params, wires, zero);
    IdsCountUp(c.lastId, |wires|);
  }
}

=== FILE: orchestrator.dfy ===
/** The Anthropic tool-use loop of internal/chatbot/chatbot.go: the
    stop-reason dispatch of callAnthropic and handleAnthropicToolUse, which
    answers every tool_use block with one tool_result, resubmits the
    conversation, and goes round again while the model keeps asking for
    tools. The Messages API is replaced by a finite script of replies, one
    per request sent; running out of script is the `Unfinished` outcome. */
module Orchestrator {
  import opened Errors
  import opened Protocol
  import opened Clients
  import opened Catalog
  import Session

  const Model := "claude-sonnet-4-20250514"
  const MaxTokens := 1024
  const StopToolUse := "tool_use"

  /** The history entries handleAnthropicToolUse appends before going round
      again, in place of the real tool_use and tool_result messages. */
  const ToolUsePlaceholder := "[Tool use in progress]"
  const ToolResultsPlaceholder := "[Tool results]"

  /** The content of a tool_result: the error text of a failed invocation,
      or the tool's result (sent as its JSON encoding). */
  datatype ResultBody = Message(text: string) | Encoded(result: CallToolResult)

  /** One content block (AnthropicContent in internal/backend/anthropic.go),
      by its `type`. `Other` stands for every type except "text",
      "tool_use" and "tool_result", which have their own constructors;
      WellKinded states this. */
  datatype Block =
    | Text(text: string)
    | ToolUse(id: string, name: string, input: Json)
    | ToolResult(toolUseId: string, content: ResultBody, isError: bool)
    | Other(kind: string)

  /** A block of the wire's `type` "text", "tool_use" or "tool_result" is
      always read into its own constructor, never into `Other`. */
  predicate WellKinded(b: Block) {
    b.Other? ==> b.kind != "text" && b.kind != "tool_use" && b.kind != "tool_result"
  }

  /** A message's content is a plain string or a list of blocks. */
  datatype MessageContent = Plain(text: string) | Blocks(blocks: seq<Block>)

  datatype ApiMessage = ApiMessage(role: string, content: MessageContent)

  datatype ApiTool = ApiTool(name: string, description: string, inputSchema: Json)

  datatype ApiRequest = ApiRequest(model: string, maxTokens: int, messages: seq<ApiMessage>, tools: seq<ApiTool>)

  datatype ApiResponse = ApiResponse(content: seq<Block>, stopReason: string)

  /** What one request to the Messages API comes to: a decoded 200 response,
      or the error of any step between marshalling and unmarshalling. */
  datatype BackendReply = Replied(response: ApiResponse) | CallFailed(message: string)

  /** The environment's API key ("" when unset) and the MCP switch. */
  datatype Settings = Settings(apiKey: string, mcpEnabled: bool)

  datatype Outcome = Answer(text: string) | Failure(error: Error) | Unfinished

  /** One user turn: its outcome, the registry afterwards and every request
      sent to the API, in order. */
  datatype Turn = Turn(outcome: Outcome, registry: Servers, sent: seq<ApiRequest>)

  function Request(messages: seq<ApiMessage>, tools: seq<ApiTool>): ApiRequest {
    ApiRequest(Model, MaxTokens, messages, tools)
  }

  /** convertMCPToolsToAnthropic: one API tool per catalog entry, in order. */
  function ConvertTools(catalog: seq<Tool>): (tools: seq<ApiTool>)
    ensures |tools| == |catalog|
    ensures forall i :: 0 <= i < |catalog| ==>
      tools[i].name == catalog[i].name && tools[i].description == catalog[i].description
      && tools[i].inputSchema == catalog[i].inputSchema
  {
    seq(|catalog|, i requires 0 <= i < |catalog| => ApiTool(catalog[i].name, catalog[i].description, catalog[i].inputSchema))
  }

  /** The tool_use blocks of a content list, in order. */
  function Uses(blocks: seq<Block>): (uses: seq<Block>)
    ensures forall k :: 0 <= k < |uses| ==> uses[k].ToolUse?
    ensures |uses| <= |blocks|
    decreases |blocks|
  {
    if |blocks| == 0 then []
    else (if blocks[0].ToolUse? then [blocks[0]] else []) + Uses(blocks[1..])
  }

  /** The tool_use blocks are exactly the blocks of that type, and the
      selection keeps their order across any split of the list. */
  lemma {:induction false} UsesSelects(a: seq<Block>, b: seq<Block>)
    ensures Uses(a + b) == Uses(a) + Uses(b)
    ensures forall x :: x in Uses(a) <==> x in a && x.ToolUse?
    decreases |a|
  {
    if |a| == 0 {
      assert a + b == b;
    } else {
      UsesSelects(a[1..], b);
      var head := if a[0].ToolUse? then [a[0]] else [];
      assert (a + b)[0] == a[0];
      assert (a + b)[1..] == a[1..] + b;
      assert Uses(a + b) == head + Uses(a[1..] + b);
      assert Uses(a) == head + Uses(a[1..]);
      assert head + (Uses(a[1..]) + Uses(b)) == (head + Uses(a[1..])) + Uses(b);
      assert forall x :: x in a <==> x == a[0] || x in a[1..];
    }
  }

  /** The tool_result answering one tool_use. */
  function ResultFor(id: string, r: Result<CallToolResult>): (b: Block)
    ensures b.ToolResult? && b.toolUseId == id
    ensures b.isError <==> r.Err?
    ensures r.Err? ==> b.content == Message("Error: " + Describe(r.error))
    ensures r.Ok? ==> b.content == Encoded(r.value)
  {
    match r
    case Ok(v) => ToolResult(id, Encoded(v), false)
    case Err(e) => ToolResult(id, Message("Error: " + Describe(e)), true)
  }

  /** `result` answers the tool_use `u`: a tool_result carrying its id,
      flagged as an error exactly when it carries a message, and every such
      message starts with "Error: ". */
  predicate AnswersOne(result: Block, u: Block) {
    && result.ToolResult? && u.ToolUse? && result.toolUseId == u.id
    && (result.isError <==> result.content.Message?)
    && (result.isError ==> "Error: " <= result.content.text)
  }

  /** `results` answers `uses` one to one, in order. */
  predicate Answers(results: seq<Block>, uses: seq<Block>) {
    && |results| == |uses|
    && forall k {:trigger AnswersOne(results[k], uses[k])} :: 0 <= k < |results| ==> AnswersOne(results[k], uses[k])
  }

  lemma AnswersCons(u: Block, result: Result<CallToolResult>, rest: seq<Block>, uses: seq<Block>)
    requires u.ToolUse? && Answers(rest, uses)
    ensures Answers([ResultFor(u.id, result)] + rest, [u] + uses)
  {
    var results := [ResultFor(u.id, result)] + rest;
    forall k | 0 <= k < |results|
      ensures AnswersOne(results[k], ([u] + uses)[k])
    {
      if k > 0 {
        assert AnswersOne(rest[k - 1], uses[k - 1]);
      }
    }
  }

  /** The loop of handleAnthropicToolUse over the response's blocks: every
      tool_use block, in order, is invoked and answered by exactly one
      tool_result carrying its id; every other block is passed over. */
  function ToolResults(blocks: seq<Block>, catalog: seq<Tool>, reg: Servers, remote: Remote<CallToolResult>): (t: (seq<Block>, Servers))
    ensures Answers(t.0, Uses(blocks))
    ensures |Uses(blocks)| == 0 ==> t.1 == reg
    ensures t.1.Keys == reg.Keys
    ensures NamesMatch(reg) ==> NamesMatch(t.1)
    decreases |blocks|
  {
    if |blocks| == 0 then ([], reg)
    else match blocks[0]
      case ToolUse(id, name, input) =>
        var v := InvokeTool(catalog, reg, name, input, remote);
        var rest := ToolResults(blocks[1..], catalog, v.registry, remote);
        AnswersCons(blocks[0], v.result, rest.0, Uses(blocks[1..]));
        ([ResultFor(id, v.result)] + rest.0, rest.1)
      case _ => ToolResults(blocks[1..], catalog, reg, remote)
  }

  /** A single tool_use is answered with the outcome of invoking that tool:
      an error-flagged "Error: ..." result when the invocation fails. */
  lemma OneToolUse(id: string, name: string, input: Json, catalog: seq<Tool>, reg: Servers, remote: Remote<CallToolResult>)
    ensures var v := InvokeTool(catalog, reg, name, input, remote);
      ToolResults([ToolUse(id, name, input)], catalog, reg, remote) == ([ResultFor(id, v.result)], v.registry)
    ensures var v := InvokeTool(catalog, reg, name, input, remote);
      ToolResults([ToolUse(id, name, input)], catalog, reg, remote).0[0].isError <==> v.result.Err?
  {
    var v := InvokeTool(catalog, reg, name, input, remote);
    var blocks := [ToolUse(id, name, input)];
    assert blocks[0] == ToolUse(id, name, input);
    assert blocks[1..] == [];
    var rest := ToolResults(blocks[1..], catalog, v.registry, remote);
    assert rest == ([], v.registry);
    assert ToolResults(blocks, catalog, reg, remote) == ([ResultFor(id, v.result)] + rest.0, rest.1);
    assert [ResultFor(id, v.result)] + rest.0 == [ResultFor(id, v.result)];
  }

  /** Regrouping concatenations: h + (f + s) read as (h + f) + s. */
  lemma Regroup<T>(whole: seq<T>, head: seq<T>, tail: seq<T>, first: seq<T>, second: seq<T>, front: seq<T>)
    requires whole == head + tail && tail == first + second && front == head + first
    ensures whole == front + second
  {
  }

  /** One step of the loop: a tool_use block is invoked and answered first. */
  lemma AnswerFirst(blocks: seq<Block>, catalog: seq<Tool>, reg: Servers, remote: Remote<CallToolResult>)
    requires |blocks| > 0 && blocks[0].ToolUse?
    ensures var v := InvokeTool(catalog, reg, blocks[0].name, blocks[0].input, remote);
      ToolResults(blocks, catalog, reg, remote).0 == [ResultFor(blocks[0].id, v.result)] + ToolResults(blocks[1..], catalog, v.registry, remote).0
    ensures var v := InvokeTool(catalog, reg, blocks[0].name, blocks[0].input, remote);
      ToolResults(blocks, catalog, reg, remote).1 == ToolResults(blocks[1..], catalog, v.registry, remote).1
  {
  }

  /** One step of the loop: any other block is passed over. */
  lemma SkipFirst(blocks: seq<Block>, catalog: seq<Tool>, reg: Servers, remote: Remote<CallToolResult>)
    requires |blocks| > 0 && !blocks[0].ToolUse?
    ensures ToolResults(blocks, catalog, reg, remote).0 == ToolResults(blocks[1..], catalog, reg, remote).0
    ensures ToolResults(blocks, catalog, reg, remote).1 == ToolResults(blocks[1..], catalog, reg, remote).1
  {
  }

  /** The loop over a list split in two is the loop over the first part,
      then the loop over the second starting from the registry the first
      part left behind. With OneToolUse and PassedOver this ties every
      tool_result, in order, to the invocation of its own tool_use block on
      the registry as the earlier invocations left it. */
  lemma {:induction false} ToolResultsSplit(a: seq<Block>, b: seq<Block>, catalog: seq<Tool>, reg: Servers, remote: Remote<CallToolResult>)
    ensures var first := ToolResults(a, catalog, reg, remote);
      ToolResults(a + b, catalog, reg, remote).0 == first.0 + ToolResults(b, catalog, first.1, remote).0
    ensures var first := ToolResults(a, catalog, reg, remote);
      ToolResults(a + b, catalog, reg, remote).1 == ToolResults(b, catalog, first.1, remote).1
    decreases |a|, 1
  {
    if |a| == 0 {
      assert a + b == b;
      assert ToolResults(a, catalog, reg, remote) == ([], reg);
      assert [] + ToolResults(b, catalog, reg, remote).0 == ToolResults(b, catalog, reg, remote).0;
    } else if a[0].ToolUse? {
      SplitAtUse(a, b, catalog, reg, remote);
    } else {
      SplitAtOther(a, b, catalog, reg, remote);
    }
  }

  /** ToolResultsSplit for a first part that starts with a tool_use. */
  lemma {:induction false} SplitAtUse(a: seq<Block>, b: seq<Block>, catalog: seq<Tool>, reg: Servers, remote: Remote<CallToolResult>)
    requires |a| > 0 && a[0].ToolUse?
    ensures var first := ToolResults(a, catalog, reg, remote);
      ToolResults(a + b, catalog, reg, remote).0 == first.0 + ToolResults(b, catalog, first.1, remote).0
    ensures var first := ToolResults(a, catalog, reg, remote);
      ToolResults(a + b, catalog, reg, remote).1 == ToolResults(b, catalog, first.1, remote).1
    decreases |a|, 0
  {
    var ab := a + b;
    assert ab[0] == a[0] && ab[1..] == a[1..] + b;
    var v := InvokeTool(catalog, reg, a[0].name, a[0].input, remote);
    var head := [ResultFor(a[0].id, v.result)];
    var first := ToolResults(a[1..], catalog, v.registry, remote);
    var second := ToolResults(b, catalog, first.1, remote);
    var tail := ToolResults(a[1..] + b, catalog, v.registry, remote);
    AnswerFirst(a, catalog, reg, remote);
    AnswerFirst(ab, catalog, reg, remote);
    ToolResultsSplit(a[1..], b, catalog, v.registry, remote);
    Regroup(ToolResults(ab, catalog, reg, remote).0, head, tail.0, first.0, second.0, ToolResults(a, catalog, reg, remote).0);
  }

  /** ToolResultsSplit for a first part that starts with another block. */
  lemma {:induction false} SplitAtOther(a: seq<Block>, b: seq<Block>, catalog: seq<Tool>, reg: Servers, remote: Remote<CallToolResult>)
    requires |a| > 0 && !a[0].ToolUse?
    ensures var first := ToolResults(a, catalog, reg, remote);
      ToolResults(a + b, catalog, reg, remote).0 == first.0 + ToolResults(b, catalog, first.1, remote).0
    ensures var first := ToolResults(a, catalog, reg, remote);
      ToolResults(a + b, catalog, reg, remote).1 == ToolResults(b, catalog, first.1, remote).1
    decreases |a|, 0
  {
    var ab := a + b;
    assert ab[0] == a[0] && ab[1..] == a[1..] + b;
    ToolResultsSplit(a[1..], b, catalog, reg, remote);
    SkipFirst(a, catalog, reg, remote);
    SkipFirst(ab, catalog, reg, remote);
  }

  /** Wherever a tool_use block stands in the response, its tool_result
      (the one after the results of the tool_use blocks before it) is the
      outcome of invoking its tool on the registry the earlier invocations
      left behind: flagged as an error exactly when that invocation fails. */
  lemma UseAnsweredInPlace(a: seq<Block>, id: string, name: string, input: Json, b: seq<Block>,
                           catalog: seq<Tool>, reg: Servers, remote: Remote<CallToolResult>)
    ensures var before := ToolResults(a, catalog, reg, remote);
      var v := InvokeTool(catalog, before.1, name, input, remote);
      var all := ToolResults(a + [ToolUse(id, name, input)] + b, catalog, reg, remote).0;
      && |Uses(a)| < |all|
      && all[|Uses(a)|] == ResultFor(id, v.result)
      && (all[|Uses(a)|].isError <==> v.result.Err?)
  {
    var u := ToolUse(id, name, input);
    var before := ToolResults(a, catalog, reg, remote);
    var v := InvokeTool(catalog, before.1, name, input, remote);
    var after := ToolResults([u] + b, catalog, before.1, remote);
    assert a + [u] + b == a + ([u] + b);
    ToolResultsSplit(a, [u] + b, catalog, reg, remote);
    ToolResultsSplit([u], b, catalog, before.1, remote);
    OneToolUse(id, name, input, catalog, before.1, remote);
    assert after.0 == [ResultFor(id, v.result)] + ToolResults(b, catalog, v.registry, remote).0;
    assert |before.0| == |Uses(a)|;
  }

  /** A block other than tool_use gets no answer and invokes nothing. */
  lemma PassedOver(b: Block, catalog: seq<Tool>, reg: Servers, remote: Remote<CallToolResult>)
    requires !b.ToolUse?
    ensures ToolResults([b], catalog, reg, remote) == ([], reg)
  {
    assert [b][1..] == [];
  }

  /** The text of the first text block, if there is one. */
  function FirstText(blocks: seq<Block>): (r: Option<string>)
    ensures r.Some? ==> exists i :: 0 <= i < |blocks| && blocks[i] == Text(r.value) && forall j :: 0 <= j < i ==> !blocks[j].Text?
    ensures r.None? <==> forall j :: 0 <= j < |blocks| ==> !blocks[j].Text?
    decreases |blocks|
  {
    if |blocks| == 0 then None
    else if blocks[0].Text? then Some(blocks[0].text)
    else
      var r := FirstText(blocks[1..]);
      if r.Some? then
        ghost var i :| 0 <= i < |blocks| - 1 && blocks[1..][i] == Text(r.value) && forall j :: 0 <= j < i ==> !blocks[1..][j].Text?;
        assert blocks[i + 1] == Text(r.value);
        r
      else r
  }

  /** A response that does not ask for tools ends the turn with its first
      text block, or with `empty` when it has none. */
  function Finish(resp: ApiResponse, empty: Error): (o: Outcome)
    ensures o.Answer? <==> exists i :: 0 <= i < |resp.content| && resp.content[i].Text?
    ensures o.Answer? ==> exists i :: 0 <= i < |resp.content| && resp.content[i] == Text(o.text) && forall j :: 0 <= j < i ==> !resp.content[j].Text?
    ensures o.Failure? ==> o.error == empty
    ensures !o.Unfinished?
  {
    match FirstText(resp.content)
    case Some(text) => Answer(text)
    case None => Failure(empty)
  }

  /** The history a further round starts from: `n` pairs of placeholders. */
  function Placeholders(n: nat): (ps: seq<ApiMessage>)
    ensures |ps| == 2 * n
  {
    if n == 0 then []
    else [ApiMessage(Session.Assistant, Plain(ToolUsePlaceholder)), ApiMessage(Session.User, Plain(ToolResultsPlaceholder))] + Placeholders(n - 1)
  }

  /** The follow-up conversation: the prior messages unchanged, then the
      assistant's full content, then the user's tool results. */
  function FollowUp(prior: seq<ApiMessage>, content: seq<Block>, results: seq<Block>): (m: seq<ApiMessage>)
    ensures |m| == |prior| + 2 && m[..|prior|] == prior
    ensures m[|prior|] == ApiMessage(Session.Assistant, Blocks(content)) && m[|prior| + 1] == ApiMessage(Session.User, Blocks(results))
  {
    prior + [ApiMessage(Session.Assistant, Blocks(content)), ApiMessage(Session.User, Blocks(results))]
  }

  /** handleAnthropicToolUse. The tools run before the API key is checked;
      every follow-up carries the whole catalog as tools; a follow-up that
      asks for tools again starts the next round from the prior messages
      plus two placeholders, not from the blocks just exchanged. */
  function HandleToolUse(settings: Settings, prior: seq<ApiMessage>, resp: ApiResponse, catalog: seq<Tool>, reg: Servers,
                         remote: Remote<CallToolResult>, script: seq<BackendReply>): (t: Turn)
    ensures |Uses(resp.content)| == 0 ==> t == Turn(Failure(NoToolUseBlocks), reg, [])
    ensures |Uses(resp.content)| > 0 && settings.apiKey == "" ==>
      t == Turn(Failure(ApiKeyMissing), ToolResults(resp.content, catalog, reg, remote).1, [])
    ensures t.sent != [] <==> |Uses(resp.content)| > 0 && settings.apiKey != ""
    ensures t.sent != [] ==>
      t.sent[0] == Request(FollowUp(prior, resp.content, ToolResults(resp.content, catalog, reg, remote).0), ConvertTools(catalog))
    ensures |Uses(resp.content)| > 0 && settings.apiKey != "" && |script| > 0 && script[0].CallFailed? ==>
      t == Turn(Failure(Backend(script[0].message)), ToolResults(resp.content, catalog, reg, remote).1, [t.sent[0]])
    ensures |Uses(resp.content)| > 0 && settings.apiKey != "" && |script| > 0 && script[0].Replied? && script[0].response.stopReason != StopToolUse ==>
      t == Turn(Finish(script[0].response, EmptyAfterToolUse), ToolResults(resp.content, catalog, reg, remote).1, [t.sent[0]])
    ensures |Uses(resp.content)| > 0 && settings.apiKey != "" && |script| == 0 ==>
      t == Turn(Unfinished, ToolResults(resp.content, catalog, reg, remote).1, [t.sent[0]])
    ensures |t.sent| <= |script| + 1
    ensures t.outcome.Unfinished? ==> |t.sent| == |script| + 1
    ensures t.registry.Keys == reg.Keys
    ensures NamesMatch(reg) ==> NamesMatch(t.registry)
    decreases |script|
  {
    var answered := ToolResults(resp.content, catalog, reg, remote);
    var results := answered.0;
    if |results| == 0 then Turn(Failure(NoToolUseBlocks), reg, [])
    else if settings.apiKey == "" then Turn(Failure(ApiKeyMissing), answered.1, [])
    else
      var request := Request(FollowUp(prior, resp.content, results), ConvertTools(catalog));
      if |script| == 0 then Turn(Unfinished, answered.1, [request])
      else match script[0]
        case CallFailed(message) => Turn(Failure(Backend(message)), answered.1, [request])
        case Replied(next) =>
          if next.stopReason == StopToolUse then
            var t := HandleToolUse(settings, prior + Placeholders(1), next, catalog, answered.1, remote, script[1..]);
            Turn(t.outcome, t.registry, [request] + t.sent)
          else Turn(Finish(next, EmptyAfterToolUse), answered.1, [request])
  }

  /** callAnthropic: without an API key nothing is sent; the first request
      offers the catalog's tools only when MCP is enabled and the catalog is
      not empty; a "tool_use" stop reason hands over to HandleToolUse, any
      other ends the turn with the first text block. */
  function CallAnthropic(settings: Settings, messages: seq<ApiMessage>, catalog: seq<Tool>, reg: Servers,
                         remote: Remote<CallToolResult>, script: seq<BackendReply>): (t: Turn)
    ensures settings.apiKey == "" ==> t == Turn(Failure(ApiKeyMissing), reg, [])
    ensures settings.apiKey != "" ==>
      && 1 <= |t.sent| <= |script| + 1
      && t.sent[0] == Request(messages, if settings.mcpEnabled && |catalog| > 0 then ConvertTools(catalog) else [])
    ensures settings.apiKey != "" && |script| > 0 && script[0].Replied? && script[0].response.stopReason != StopToolUse ==>
      t == Turn(Finish(script[0].response, EmptyResponse), reg, [t.sent[0]])
    ensures settings.apiKey != "" && |script| > 0 && script[0].CallFailed? ==>
      t == Turn(Failure(Backend(script[0].message)), reg, [t.sent[0]])
    ensures settings.apiKey != "" && |script| > 0 && script[0].Replied? && script[0].response.stopReason == StopToolUse ==>
      var h := HandleToolUse(settings, messages, script[0].response, catalog, reg, remote, script[1..]);
      t == Turn(h.outcome, h.registry, [t.sent[0]] + h.sent)
    ensures settings.apiKey != "" && |script| == 0 ==> t == Turn(Unfinished, reg, [t.sent[0]])
    ensures t.registry.Keys == reg.Keys
    ensures NamesMatch(reg) ==> NamesMatch(t.registry)
  {
    if settings.apiKey == "" then Turn(Failure(ApiKeyMissing), reg, [])
    else
      var tools := if settings.mcpEnabled && |catalog| > 0 then ConvertTools(catalog) else [];
      var request := Request(messages, tools);
      if |script| == 0 then Turn(Unfinished, reg, [request])
      else match script[0]
        case CallFailed(message) => Turn(Failure(Backend(message)), reg, [request])
        case Replied(resp) =>
          if resp.stopReason == StopToolUse then
            var t := HandleToolUse(settings, messages, resp, catalog, reg, remote, script[1..]);
            Turn(t.outcome, t.registry, [request] + t.sent)
          else Turn(Finish(resp, EmptyResponse), reg, [request])
  }

  /** A reply asking for tools, with at least one tool_use block. */
  predicate ToolRound(r: BackendReply) {
    r.Replied? && r.response.stopReason == StopToolUse && |Uses(r.response.content)| > 0
  }

  /** A script of tool rounds that ends with a reply not asking for tools. */
  predicate Settles(script: seq<BackendReply>) {
    && |script| > 0
    && (forall i :: 0 <= i < |script| - 1 ==> ToolRound(script[i]))
    && script[|script| - 1].Replied?
    && script[|script| - 1].response.stopReason != StopToolUse
  }

  /** A script that settles after a tool round still settles without it. */
  lemma SettlesTail(script: seq<BackendReply>)
    requires Settles(script) && |script| > 1
    ensures ToolRound(script[0]) && Settles(script[1..])
    ensures script[1..][|script[1..]| - 1] == script[|script| - 1]
  {
    assert forall i :: 0 <= i < |script[1..]| - 1 ==> script[1..][i] == script[i + 1];
  }

  /** A script of tool rounds whose last call fails. */
  predicate FailsAfterRounds(script: seq<BackendReply>) {
    && |script| > 0
    && (forall i :: 0 <= i < |script| - 1 ==> ToolRound(script[i]))
    && script[|script| - 1].CallFailed?
  }

  /** A script that fails after a tool round still fails without it. */
  lemma FailsTail(script: seq<BackendReply>)
    requires FailsAfterRounds(script) && |script| > 1
    ensures ToolRound(script[0]) && FailsAfterRounds(script[1..])
    ensures script[1..][|script[1..]| - 1] == script[|script| - 1]
  {
    assert forall i :: 0 <= i < |script[1..]| - 1 ==> script[1..][i] == script[i + 1];
  }

  /** A script of tool rounds whose last reply ends the turn: a failed call
      or a reply that does not ask for tools. Both Settles and
      FailsAfterRounds scripts are such. */
  predicate EndsAfterRounds(script: seq<BackendReply>) {
    && |script| > 0
    && (forall i :: 0 <= i < |script| - 1 ==> ToolRound(script[i]))
    && !(script[|script| - 1].Replied? && script[|script| - 1].response.stopReason == StopToolUse)
  }

  lemma EndsTail(script: seq<BackendReply>)
    requires EndsAfterRounds(script) && |script| > 1
    ensures ToolRound(script[0]) && EndsAfterRounds(script[1..])
  {
    assert forall i :: 0 <= i < |script[1..]| - 1 ==> script[1..][i] == script[i + 1];
  }

  /** Dropping the first reply of a script drops the first of its rounds. */
  lemma RoundsTail(script: seq<BackendReply>)
    requires |script| > 1
    ensures script[..|script| - 1][0] == script[0]
    ensures script[..|script| - 1][1..] == script[1..][..|script[1..]| - 1]
  {
  }

  /** With k further tool rounds before a call that fails, handleAnthropicToolUse
      sends k+1 requests and the turn fails with that call's error. */
  lemma {:induction false} RoundsThenFailure(settings: Settings, prior: seq<ApiMessage>, resp: ApiResponse, catalog: seq<Tool>, reg: Servers,
                                             remote: Remote<CallToolResult>, script: seq<BackendReply>)
    requires settings.apiKey != "" && |Uses(resp.content)| > 0
    requires FailsAfterRounds(script)
    ensures var t := HandleToolUse(settings, prior, resp, catalog, reg, remote, script);
      && |t.sent| == |script|
      && t.outcome == Failure(Backend(script[|script| - 1].message))
    decreases |script|
  {
    if |script| > 1 {
      var answered := ToolResults(resp.content, catalog, reg, remote);
      FailsTail(script);
      NextRound(settings, prior, resp, catalog, reg, remote, script);
      RoundsThenFailure(settings, prior + Placeholders(1), script[0].response, catalog, answered.1, remote, script[1..]);
    }
  }

  /** k tool_use responses followed by a failing call make k+1 model calls,
      and the turn fails with that call's error. */
  lemma CallsUntilFailure(settings: Settings, messages: seq<ApiMessage>, catalog: seq<Tool>, reg: Servers,
                          remote: Remote<CallToolResult>, script: seq<BackendReply>)
    requires settings.apiKey != "" && FailsAfterRounds(script)
    ensures var t := CallAnthropic(settings, messages, catalog, reg, remote, script);
      && |t.sent| == |script|
      && t.outcome == Failure(Backend(script[|script| - 1].message))
  {
    if |script| > 1 {
      FailsTail(script);
      RoundsThenFailure(settings, messages, script[0].response, catalog, reg, remote, script[1..]);
    }
  }

  /** The registry after a run of rounds is the one the tools of every
      round leave, each round's tools running on the registry the round
      before left: no client's state (its request counter) is rolled back
      between rounds. */
  lemma {:induction false} RoundsRegistry(settings: Settings, prior: seq<ApiMessage>, resp: ApiResponse, catalog: seq<Tool>, reg: Servers,
                                          remote: Remote<CallToolResult>, script: seq<BackendReply>)
    requires settings.apiKey != "" && |Uses(resp.content)| > 0
    requires EndsAfterRounds(script)
    ensures HandleToolUse(settings, prior, resp, catalog, reg, remote, script).registry
      == AfterRounds(resp, script[..|script| - 1], catalog, reg, remote)
    decreases |script|
  {
    if |script| > 1 {
      var answered := ToolResults(resp.content, catalog, reg, remote);
      EndsTail(script);
      NextRound(settings, prior, resp, catalog, reg, remote, script);
      RoundsRegistry(settings, prior + Placeholders(1), script[0].response, catalog, answered.1, remote, script[1..]);
      RoundsTail(script);
    }
  }

  /** The same for a whole turn of callAnthropic: a first reply that ends
      the turn leaves the registry alone; otherwise the registry is the one
      the rounds leave. */
  lemma TurnRegistry(settings: Settings, messages: seq<ApiMessage>, catalog: seq<Tool>, reg: Servers,
                     remote: Remote<CallToolResult>, script: seq<BackendReply>)
    requires settings.apiKey != "" && EndsAfterRounds(script)
    ensures CallAnthropic(settings, messages, catalog, reg, remote, script).registry
      == if |script| == 1 then reg else AfterRounds(script[0].response, script[1..|script| - 1], catalog, reg, remote)
  {
    if |script| > 1 {
      EndsTail(script);
      RoundsRegistry(settings, messages, script[0].response, catalog, reg, remote, script[1..]);
      assert script[1..][..|script[1..]| - 1] == script[1..|script| - 1];
    }
  }

  /** The i-th request of a run of rounds starts from the prior messages
      and i pairs of placeholders, ends with that round's exchange (an
      assistant message of blocks, then a user message of blocks), and
      offers the whole catalog. */
  ghost predicate RoundShapes(prior: seq<ApiMessage>, sent: seq<ApiRequest>, catalog: seq<Tool>) {
    forall i :: 0 <= i < |sent| ==>
      && |sent[i].messages| == |prior| + 2 * i + 2
      && sent[i].messages[..|prior| + 2 * i] == prior + Placeholders(i)
      && sent[i].messages[|prior| + 2 * i].role == Session.Assistant && sent[i].messages[|prior| + 2 * i].content.Blocks?
      && sent[i].messages[|prior| + 2 * i + 1].role == Session.User && sent[i].messages[|prior| + 2 * i + 1].content.Blocks?
      && sent[i].tools == ConvertTools(catalog)
  }

  lemma RoundShapesCons(prior: seq<ApiMessage>, first: ApiRequest, rest: seq<ApiRequest>, catalog: seq<Tool>)
    requires |first.messages| == |prior| + 2 && first.messages[..|prior|] == prior && first.tools == ConvertTools(catalog)
    requires first.messages[|prior|].role == Session.Assistant && first.messages[|prior|].content.Blocks?
    requires first.messages[|prior| + 1].role == Session.User && first.messages[|prior| + 1].content.Blocks?
    requires RoundShapes(prior + Placeholders(1), rest, catalog)
    ensures RoundShapes(prior, [first] + rest, catalog)
  {
    var sent := [first] + rest;
    forall i | 0 <= i < |sent|
      ensures |sent[i].messages| == |prior| + 2 * i + 2
      ensures sent[i].messages[..|prior| + 2 * i] == prior + Placeholders(i)
      ensures sent[i].messages[|prior| + 2 * i].role == Session.Assistant && sent[i].messages[|prior| + 2 * i].content.Blocks?
      ensures sent[i].messages[|prior| + 2 * i + 1].role == Session.User && sent[i].messages[|prior| + 2 * i + 1].content.Blocks?
      ensures sent[i].tools == ConvertTools(catalog)
    {
      if i == 0 {
        assert prior + Placeholders(0) == prior;
      } else {
        assert sent[i] == rest[i - 1];
        assert Placeholders(i) == Placeholders(1) + Placeholders(i - 1);
        assert prior + Placeholders(1) + Placeholders(i - 1) == prior + Placeholders(i);
      }
    }
  }

  /** One more round: a follow-up reply that asks for tools again hands the
      rest of the script to the next round. */
  lemma NextRound(settings: Settings, prior: seq<ApiMessage>, resp: ApiResponse, catalog: seq<Tool>, reg: Servers,
                  remote: Remote<CallToolResult>, script: seq<BackendReply>)
    requires settings.apiKey != "" && |Uses(resp.content)| > 0
    requires |script| > 0 && script[0].Replied? && script[0].response.stopReason == StopToolUse
    ensures var t := HandleToolUse(settings, prior, resp, catalog, reg, remote, script);
      var rest := HandleToolUse(settings, prior + Placeholders(1), script[0].response, catalog,
                                ToolResults(resp.content, catalog, reg, remote).1, remote, script[1..]);
      t == Turn(rest.outcome, rest.registry, [t.sent[0]] + rest.sent)
  {
  }

  /** The last round: a follow-up reply that does not ask for tools ends the
      turn with its first text block after one request, keeping the registry
      this round's tools left; the rest of the script is never read. */
  lemma LastRound(settings: Settings, prior: seq<ApiMessage>, resp: ApiResponse, catalog: seq<Tool>, reg: Servers,
                  remote: Remote<CallToolResult>, script: seq<BackendReply>)
    requires settings.apiKey != "" && |Uses(resp.content)| > 0
    requires |script| > 0 && script[0].Replied? && script[0].response.stopReason != StopToolUse
    ensures var t := HandleToolUse(settings, prior, resp, catalog, reg, remote, script);
      && |t.sent| == 1
      && t.outcome == Finish(script[0].response, EmptyAfterToolUse)
      && t.registry == ToolResults(resp.content, catalog, reg, remote).1
  {
  }

  /** Reference registry for a run of rounds: the tools of `first` run on
      `reg`, then the tools of each further reply in turn, each on the
      registry the one before left. */
  function AfterRounds(first: ApiResponse, rounds: seq<BackendReply>, catalog: seq<Tool>, reg: Servers,
                       remote: Remote<CallToolResult>): Servers
    decreases |rounds|
  {
    var r := ToolResults(first.content, catalog, reg, remote).1;
    if |rounds| == 0 || !rounds[0].Replied? then r
    else AfterRounds(rounds[0].response, rounds[1..], catalog, r, remote)
  }

  /** With k further tool rounds before a final reply, handleAnthropicToolUse
      sends k+1 requests; the i-th starts from the prior messages and i
      pairs of placeholders and ends with that round's assistant blocks and
      user tool results; the answer is the final reply's first text block. */
  lemma {:induction false} RoundsOfToolUse(settings: Settings, prior: seq<ApiMessage>, resp: ApiResponse, catalog: seq<Tool>, reg: Servers,
                                           remote: Remote<CallToolResult>, script: seq<BackendReply>)
    requires settings.apiKey != "" && |Uses(resp.content)| > 0
    requires Settles(script)
    ensures var t := HandleToolUse(settings, prior, resp, catalog, reg, remote, script);
      && |t.sent| == |script|
      && t.outcome == Finish(script[|script| - 1].response, EmptyAfterToolUse)
      && RoundShapes(prior, t.sent, catalog)
    decreases |script|
  {
    var t := HandleToolUse(settings, prior, resp, catalog, reg, remote, script);
    var first := t.sent[0];
    assert |first.messages| == |prior| + 2 && first.messages[..|prior|] == prior && first.tools == ConvertTools(catalog);
    assert first.messages[|prior|].role == Session.Assistant && first.messages[|prior|].content.Blocks?;
    assert first.messages[|prior| + 1].role == Session.User && first.messages[|prior| + 1].content.Blocks?;
    if |script| == 1 {
      LastRound(settings, prior, resp, catalog, reg, remote, script);
      assert t.sent == [first];
      assert RoundShapes(prior, t.sent, catalog) by {
        assert prior + Placeholders(0) == prior;
      }
    } else {
      var answered := ToolResults(resp.content, catalog, reg, remote);
      var prior' := prior + Placeholders(1);
      SettlesTail(script);
      NextRound(settings, prior, resp, catalog, reg, remote, script);
      RoundsOfToolUse(settings, prior', script[0].response, catalog, answered.1, remote, script[1..]);
      var rest := HandleToolUse(settings, prior', script[0].response, catalog, answered.1, remote, script[1..]);
      assert t.sent == [first] + rest.sent && t.outcome == rest.outcome;
      RoundShapesCons(prior, first, rest.sent, catalog);
    }
  }

  /** k tool_use responses followed by a final one make k+1 model calls,
      and the answer is the final response's first text block. */
  lemma ModelCallsPerTurn(settings: Settings, messages: seq<ApiMessage>, catalog: seq<Tool>, reg: Servers,
                          remote: Remote<CallToolResult>, script: seq<BackendReply>)
    requires settings.apiKey != "" && Settles(script)
    ensures var t := CallAnthropic(settings, messages, catalog, reg, remote, script);
      && |t.sent| == |script|
      && t.outcome == Finish(script[|script| - 1].response, if |script| == 1 then EmptyResponse else EmptyAfterToolUse)
  {
    if |script| > 1 {
      SettlesTail(script);
      RoundsOfToolUse(settings, messages, script[0].response, catalog, reg, remote, script[1..]);
    }
  }
}

=== FILE: protocol.dfy ===
/** The JSON-RPC 2.0 envelope and the three MCP method payloads
    (internal/mcp/protocol.go and the Tool record of internal/mcp/client.go),
    plus the two pieces of behaviour every transport shares: the request-id
    counter and the decision taken on a decoded response. */
module Protocol {
  import opened Errors

  const JsonRpcVersion := "2.0"
  const MethodInitialize := "initialize"
  const MethodListTools := "tools/list"
  const MethodCallTool := "tools/call"

  /** A JSON value the client carries without looking inside: tool
      arguments, input schemas, error data. */
  datatype Json =
    | JNull
    | JBool(b: bool)
    | JNumber(literal: string)
    | JString(s: string)
    | JArray(items: seq<Json>)
    | JObject(members: seq<(string, Json)>)

  /** Go's `int32`, the type of every client's request counter. */
  newtype int32 = x: int | -0x8000_0000 <= x < 0x8000_0000

  const MaxInt32: int32 := 0x7fff_ffff
  const MinInt32: int32 := -0x8000_0000

  /** `atomic.AddInt32(&c.reqID, 1)`: two's-complement increment. */
  function NextId(last: int32): (next: int32)
    ensures next as int == (last as int + 1 + 0x8000_0000) % 0x1_0000_0000 - 0x8000_0000
  {
    if last == MaxInt32 then MinInt32 else last + 1
  }

  datatype ClientInfo = ClientInfo(name: string, version: string)

  /** The `params` member of a request; `NoParams` is the omitted member of
      `tools/list`. */
  datatype Params =
    | NoParams
    | InitializeParams(clientInfo: ClientInfo)
    | CallToolParams(name: string, arguments: Json)

  /** A JSON-RPC 2.0 request object (section 4 of the JSON-RPC 2.0
      specification). */
  datatype Request = Request(jsonrpc: string, id: int, methodName: string, params: Params)

  /** A JSON-RPC 2.0 error object (section 5.1). */
  datatype RpcError = RpcError(code: int, message: string, data: Json)

  /** The `result` member of a response as it decodes into the caller's
      result type: it fits, or decoding it fails with a reason. */
  datatype Decoded<+R> = Fits(value: R) | Misfit(reason: string)

  /** A JSON-RPC 2.0 response object (section 5) whose envelope has already
      been decoded; `result` is None when the member is absent or null. */
  datatype Response<+R> = Response(jsonrpc: string, id: int, result: Option<Decoded<R>>, error: Option<RpcError>)

  datatype ServerInfo = ServerInfo(name: string, version: string)
  datatype InitializeResult = InitializeResult(serverInfo: ServerInfo)
  datatype ToolInfo = ToolInfo(name: string, description: string, inputSchema: Json)
  datatype ListToolsResult = ListToolsResult(tools: seq<ToolInfo>)
  datatype Content = Content(kind: string, text: string)
  datatype CallToolResult = CallToolResult(content: seq<Content>)

  /** Go's zero values of the three result types: what a response without
      `result` decodes to. */
  const NoInitializeResult := InitializeResult(ServerInfo("", ""))
  const NoToolList := ListToolsResult([])
  const NoCallToolResult := CallToolResult([])

  /** A tool as the chat client keeps it: a server's ToolInfo tagged with the
      name of the client that listed it. */
  datatype Tool = Tool(name: string, description: string, inputSchema: Json, serverName: string)

  /** What the client does with one call's outcome: the state it leaves
      behind, the request it built (None when it refused before taking an
      id) and the result. */
  datatype Exchange<+C, +R> = Exchange(client: C, issued: Option<Request>, result: Result<R>)

  function Info(t: Tool): ToolInfo {
    ToolInfo(t.name, t.description, t.inputSchema)
  }

  /** The loop every transport's ListTools runs over the listed tools. */
  function Tag(infos: seq<ToolInfo>, server: string): (tools: seq<Tool>)
    ensures |tools| == |infos|
    ensures forall i :: 0 <= i < |infos| ==> tools[i].serverName == server && Info(tools[i]) == infos[i]
  {
    if |infos| == 0 then []
    else [Tool(infos[0].name, infos[0].description, infos[0].inputSchema, server)] + Tag(infos[1..], server)
  }

  function Infos(tools: seq<Tool>): (infos: seq<ToolInfo>)
    ensures |infos| == |tools|
    ensures forall i :: 0 <= i < |tools| ==> infos[i] == Info(tools[i])
  {
    if |tools| == 0 then [] else [Info(tools[0])] + Infos(tools[1..])
  }

  /** Tagging loses nothing: the server's list is recovered from the tags. */
  lemma TagRoundTrip(infos: seq<ToolInfo>, server: string)
    ensures Infos(Tag(infos, server)) == infos
  {
  }

  /** The decision every transport takes on a response it has read and
      decoded: an `error` member fails the call with its code and message
      and the result is never looked at; otherwise the result is decoded
      into the caller's type, a missing result giving that type's zero
      value. Neither `jsonrpc` nor `id` is inspected. */
  function Settle<R>(resp: Response<R>, zero: R): (r: Result<R>)
    ensures resp.error.Some? ==> r == Err(Rpc(resp.error.value.code, resp.error.value.message))
    ensures resp.error.None? && resp.result.None? ==> r == Ok(zero)
    ensures resp.error.None? && resp.result.Some? && resp.result.value.Fits? ==> r == Ok(resp.result.value.value)
    ensures r.Err? <==> resp.error.Some? || (resp.result.Some? && resp.result.value.Misfit?)
  {
    if resp.error.Some? then Err(Rpc(resp.error.value.code, resp.error.value.message))
    else match resp.result
      case None => Ok(zero)
      case Some(Fits(v)) => Ok(v)
      case Some(Misfit(reason)) => Err(DecodeResultFailed(reason))
  }

  /** How every client's Initialize reports its exchange: the server's
      info, or the failure wrapped with "initialize failed". */
  function Initialized<C>(s: Exchange<C, InitializeResult>): (x: Exchange<C, ServerInfo>)
    ensures x.client == s.client && x.issued == s.issued
    ensures x.result.Ok? <==> s.result.Ok?
    ensures x.result.Ok? ==> s.result.value == InitializeResult(x.result.value)
    ensures x.result.Err? ==> x.result.error == Wrapped("initialize failed", s.result.error)
  {
    match s.result
    case Ok(r) => Exchange(s.client, s.issued, Ok(r.serverInfo))
    case Err(e) => Exchange(s.client, s.issued, Err(Wrapped("initialize failed", e)))
  }

  /** How every client's ListTools reports its exchange: the server's tools
      in its order, each tagged with `server`, or the failure wrapped with
      "list tools failed". */
  function ToolsListed<C>(s: Exchange<C, ListToolsResult>, server: string): (x: Exchange<C, seq<Tool>>)
    ensures x.client == s.client && x.issued == s.issued
    ensures x.result.Ok? <==> s.result.Ok?
    ensures x.result.Ok? ==>
      && s.result.value == ListToolsResult(Infos(x.result.value))
      && forall i :: 0 <= i < |x.result.value| ==> x.result.value[i].serverName == server
    ensures x.result.Err? ==> x.result.error == Wrapped("list tools failed", s.result.error)
  {
    match s.result
    case Ok(r) =>
      TagRoundTrip(r.tools, server);
      Exchange(s.client, s.issued, Ok(Tag(r.tools, server)))
    case Err(e) => Exchange(s.client, s.issued, Err(Wrapped("list tools failed", e)))
  }

  /** How every client's CallTool reports its exchange: the tool's result,
      or the failure wrapped with "call tool failed". */
  function ToolCalled<C>(s: Exchange<C, CallToolResult>): (x: Exchange<C, CallToolResult>)
    ensures x.client == s.client && x.issued == s.issued
    ensures s.result.Ok? ==> x.result == s.result
    ensures s.result.Err? ==> x.result == Err(Wrapped("call tool failed", s.result.error))
  {
    match s.result
    case Ok(_) => s
    case Err(e) => Exchange(s.client, s.issued, Err(Wrapped("call tool failed", e)))
  }

  /** No transport correlates a response with its request: the decision is
      the same whatever `id` and `jsonrpc` the response carries. */
  lemma SettleIgnoresEnvelope<R>(resp: Response<R>, zero: R, id: int, version: string)
    ensures Settle(resp.(id := id, jsonrpc := version), zero) == Settle(resp, zero)
  {
  }

  /** Ids run 1, 2, 3, ... from a fresh counter for as long as the counter
      has not reached the int32 maximum. */
  function IdsFrom(last: int32, n: nat): (ids: seq<int>)
    decreases n
  {
    if n == 0 then [] else [NextId(last) as int] + IdsFrom(NextId(last), n - 1)
  }

  lemma {:induction false} IdsCountUp(last: int32, n: nat)
    requires last as int + n <= MaxInt32 as int
    ensures |IdsFrom(last, n)| == n
    ensures forall i :: 0 <= i < n ==> IdsFrom(last, n)[i] == last as int + 1 + i
    decreases n
  {
    if n > 0 {
      IdsCountUp(NextId(last), n - 1);
    }
  }

  /** After 2^31 - 1 requests the counter wraps: the next id is negative
      and ids are no longer increasing. */
  lemma IdWrapsAtMax()
    ensures NextId(MaxInt32) == MinInt32
    ensures NextId(MaxInt32) < MaxInt32
  {
  }
}

=== FILE: registry.dfy ===
/** ClientRegistry (internal/mcp/client.go): a finite map from server name
    to client. Go's map iteration order is unspecified, so `All` and
    `CloseAll` are methods that may visit the names in any order and
    report the order they used. The registry is generic in the client
    type; the close operation is passed in. */
module Registry {
  import opened Errors

  type Registry<C> = map<string, C>

  function Empty<C>(): (r: Registry<C>)
    ensures Count(r) == 0
  {
    map[]
  }

  function Get<C>(r: Registry<C>, name: string): (o: Option<C>)
  {
    if name in r then Some(r[name]) else None
  }

  function Count<C>(r: Registry<C>): nat {
    |r.Keys|
  }

  /** Register: binds `name` to `client`, replacing any earlier binding;
      every other name keeps its binding. */
  function Register<C>(r: Registry<C>, name: string, client: C): (r': Registry<C>)
    ensures Get(r', name) == Some(client)
    ensures forall n :: n != name ==> Get(r', n) == Get(r, n)
    ensures Count(r') == if Get(r, name).Some? then Count(r) else Count(r) + 1
  {
    var r' := r[name := client];
    assert r'.Keys == r.Keys + {name};
    r'
  }

  /** The registrations of a sequence, one after another. */
  function RegisterAll<C>(r: Registry<C>, regs: seq<(string, C)>): Registry<C>
    decreases |regs|
  {
    if |regs| == 0 then r else RegisterAll(Register(r, regs[0].0, regs[0].1), regs[1..])
  }

  function Names<C>(regs: seq<(string, C)>): set<string> {
    set i | 0 <= i < |regs| :: regs[i].0
  }

  /** The client of the last registration of `name`, if any. */
  function LastBinding<C>(regs: seq<(string, C)>, name: string): Option<C>
    decreases |regs|
  {
    if |regs| == 0 then None
    else if regs[|regs| - 1].0 == name then Some(regs[|regs| - 1].1)
    else LastBinding(regs[..|regs| - 1], name)
  }

  lemma {:induction false} RegisterAllSplit<C>(r: Registry<C>, regs: seq<(string, C)>)
    requires 0 < |regs|
    ensures RegisterAll(r, regs) == Register(RegisterAll(r, regs[..|regs| - 1]), regs[|regs| - 1].0, regs[|regs| - 1].1)
    decreases |regs|
  {
    if |regs| > 1 {
      var r1 := Register(r, regs[0].0, regs[0].1);
      RegisterAllSplit(r1, regs[1..]);
      assert regs[1..][..|regs[1..]| - 1] == regs[..|regs| - 1][1..];
    }
  }

  /** The names of a run of registrations are those of all but the last,
      plus the last one's. */
  lemma NamesSnoc<C>(regs: seq<(string, C)>)
    requires 0 < |regs|
    ensures Names(regs) == Names(regs[..|regs| - 1]) + {regs[|regs| - 1].0}
  {
    var init := regs[..|regs| - 1];
    forall n | n in Names(regs)
      ensures n in Names(init) + {regs[|regs| - 1].0}
    {
      var i :| 0 <= i < |regs| && regs[i].0 == n;
      if i < |init| {
        assert init[i] == regs[i];
      }
    }
    forall n | n in Names(init)
      ensures n in Names(regs)
    {
      var i :| 0 <= i < |init| && init[i].0 == n;
      assert regs[i] == init[i];
    }
  }

  /** Last write wins: after a run of registrations from an empty registry,
      Get returns the client of the last registration of a name, and
      absent for a name never registered. */
  lemma {:induction false} GetAfterRegistrations<C>(regs: seq<(string, C)>, name: string)
    ensures Get(RegisterAll(Empty(), regs), name) == LastBinding(regs, name)
    ensures Get(RegisterAll(Empty(), regs), name).None? <==> name !in Names(regs)
    decreases |regs|
  {
    if |regs| > 0 {
      var init := regs[..|regs| - 1];
      var last := regs[|regs| - 1];
      var before := RegisterAll(Empty(), init);
      RegisterAllSplit(Empty(), regs);
      assert RegisterAll(Empty(), regs) == Register(before, last.0, last.1);
      GetAfterRegistrations(init, name);
      NamesSnoc(regs);
      if last.0 == name {
        assert LastBinding(regs, name) == Some(last.1);
      } else {
        assert LastBinding(regs, name) == LastBinding(init, name);
        assert Get(RegisterAll(Empty(), regs), name) == Get(before, name);
      }
    }
  }

  /** Count is the number of distinct names registered. */
  lemma {:induction false} CountIsDistinctNames<C>(regs: seq<(string, C)>)
    ensures Count(RegisterAll(Empty(), regs)) == |Names(regs)|
    decreases |regs|
  {
    if |regs| > 0 {
      var init := regs[..|regs| - 1];
      var last := regs[|regs| - 1].0;
      var before := RegisterAll(Empty(), init);
      RegisterAllSplit(Empty(), regs);
      assert RegisterAll(Empty(), regs) == Register(before, last, regs[|regs| - 1].1);
      CountIsDistinctNames(init);
      GetAfterRegistrations(init, last);
      NamesSnoc(regs);
      if last in Names(init) {
        assert Names(regs) == Names(init);
      } else {
        assert |Names(regs)| == |Names(init)| + 1;
      }
    }
  }

  /** The names registered are exactly the names of the registrations. */
  lemma KeysAreNames<C>(regs: seq<(string, C)>)
    ensures RegisterAll(Empty(), regs).Keys == Names(regs)
  {
    forall n
      ensures n in RegisterAll(Empty(), regs) <==> n in Names(regs)
    {
      GetAfterRegistrations(regs, n);
    }
  }

  /** Every binding left is one of the registrations made. */
  lemma {:induction false} LastBindingIsARegistration<C>(regs: seq<(string, C)>, name: string)
    ensures LastBinding(regs, name).Some? ==>
      exists i :: 0 <= i < |regs| && regs[i].0 == name && regs[i].1 == LastBinding(regs, name).value
    decreases |regs|
  {
    if |regs| > 0 && regs[|regs| - 1].0 != name {
      var init := regs[..|regs| - 1];
      LastBindingIsARegistration(init, name);
      if LastBinding(init, name).Some? {
        var i :| 0 <= i < |init| && init[i].0 == name && init[i].1 == LastBinding(init, name).value;
        assert regs[i] == init[i];
      }
    }
  }

  /** `order` lists every registered name exactly once. */
  ghost predicate Enumerates<C>(order: seq<string>, r: Registry<C>) {
    && (forall i :: 0 <= i < |order| ==> order[i] in r)
    && (forall i, j :: 0 <= i < j < |order| ==> order[i] != order[j])
    && (forall n :: n in r ==> n in order)
  }

  /** All: a snapshot holding each registered client once, in some order. */
  method All<C>(r: Registry<C>) returns (order: seq<string>, clients: seq<C>)
    ensures Enumerates(order, r)
    ensures |order| == |clients| == Count(r)
    ensures forall i :: 0 <= i < |order| ==> clients[i] == r[order[i]]
  {
    order, clients := [], [];
    var rest := r.Keys;
    while rest != {}
      invariant rest <= r.Keys
      invariant forall i :: 0 <= i < |order| ==> order[i] in r && order[i] !in rest
      invariant forall i, j :: 0 <= i < j < |order| ==> order[i] != order[j]
      invariant forall n :: n in r ==> n in rest || n in order
      invariant |order| == |clients| && |order| + |rest| == Count(r)
      invariant forall i :: 0 <= i < |order| ==> clients[i] == r[order[i]]
      decreases rest
    {
      var n :| n in rest;
      order, clients := order + [n], clients + [r[n]];
      rest := rest - {n};
    }
  }

  /** Close: closes every client, in some order, without stopping at a
      failure, and returns the first failure met wrapped with that client's
      name. Nothing is deregistered. */
  method CloseAll<C>(r: Registry<C>, close: C -> (C, Option<Error>)) returns (r': Registry<C>, err: Option<Error>, order: seq<string>)
    ensures Enumerates(order, r)
    ensures r'.Keys == r.Keys && Count(r') == Count(r)
    ensures forall n :: n in r ==> r'[n] == close(r[n]).0
    ensures err.None? <==> forall i :: 0 <= i < |order| ==> close(r[order[i]]).1.None?
    ensures err.Some? ==>
      exists i :: 0 <= i < |order| && close(r[order[i]]).1.Some?
        && err.value == CloseFailed(order[i], close(r[order[i]]).1.value)
        && forall j :: 0 <= j < i ==> close(r[order[j]]).1.None?
  {
    var clients;
    order, clients := All(r);
    r' := map n | n in r :: close(r[n]).0;
    err := None;
    ghost var first := 0;
    var k := 0;
    while k < |order|
      invariant 0 <= k <= |order|
      invariant err.None? <==> forall i :: 0 <= i < k ==> close(r[order[i]]).1.None?
      invariant err.Some? ==>
        && first < k && close(r[order[first]]).1.Some?
        && err.value == CloseFailed(order[first], close(r[order[first]]).1.value)
        && forall j :: 0 <= j < first ==> close(r[order[j]]).1.None?
    {
      var closed := close(clients[k]);
      if closed.1.Some? && err.None? {
        err := Some(CloseFailed(order[k], closed.1.value));
        first := k;
      }
      k := k + 1;
    }
  }
}

=== FILE: session.dfy ===
/** The session record (internal/session/session.go) and the backend names
    of internal/config/config.go. Times are whole seconds supplied by the
    caller; the model has no clock. */
module Session {
  import opened Errors

  const Ollama := "ollama"
  const Anthropic := "anthropic"
  const Grok := "grok"
  const OpenAI := "openai"

  const User := "user"
  const Assistant := "assistant"

  predicate IsBackend(name: string) {
    name == Ollama || name == Anthropic || name == Grok || name == OpenAI
  }

  datatype Message = Message(role: string, content: string, timestamp: int)

  datatype Session = Session(id: string, startTime: int, backend: string, messages: seq<Message>)

  const SessionPrefix := "session_"

  /** `id` is `prefix` followed by `n` as `%d` writes it: a minus sign when
      `n` is negative, then decimal digits without a leading zero that read
      back as |n|. */
  predicate NamedAfter(id: string, prefix: string, n: int) {
    var start := if n < 0 then |prefix| + 1 else |prefix|;
    && |id| > start && id[..|prefix|] == prefix
    && (n < 0 ==> id[|prefix|] == '-')
    && (forall i :: start <= i < |id| ==> '0' <= id[i] <= '9')
    && (id[start] == '0' ==> |id| == start + 1)
    && ParseDigits(id[start..]) == (if n < 0 then -n else n)
  }

  lemma DigitsAfter(prefix: string, m: nat)
    ensures var id := prefix + Digits(m);
      && |id| > |prefix| && id[..|prefix|] == prefix
      && (forall i :: |prefix| <= i < |id| ==> '0' <= id[i] <= '9')
      && (id[|prefix|] == '0' ==> |id| == |prefix| + 1)
      && ParseDigits(id[|prefix|..]) == m
  {
    DigitsRoundTrip(m);
    DigitsNoLeadingZero(m);
    var id := prefix + Digits(m);
    assert id[..|prefix|] == prefix;
    assert id[|prefix|..] == Digits(m);
    assert forall i :: |prefix| <= i < |id| ==> id[i] == Digits(m)[i - |prefix|];
  }

  /** `%d` written after a prefix reads back from the prefix on. */
  lemma DecimalAfter(prefix: string, n: int)
    ensures NamedAfter(prefix + Decimal(n), prefix, n)
  {
    if n >= 0 {
      DigitsAfter(prefix, n);
    } else {
      var signed := prefix + ['-'];
      DigitsAfter(signed, -n);
      var id := prefix + Decimal(n);
      assert Decimal(n) == ['-'] + Digits(-n);
      assert id == signed + Digits(-n);
      assert id[..|prefix|] == signed[..|prefix|] == prefix;
      assert id[|prefix|] == signed[|prefix|] == '-';
    }
  }

  /** newSession: an empty session named after the Unix time it starts,
      "session_" followed by that time in decimal. */
  function NewSession(backend: string, now: int): (s: Session)
    ensures s.messages == [] && s.backend == backend && s.startTime == now
    ensures NamedAfter(s.id, SessionPrefix, now)
  {
    DecimalAfter(SessionPrefix, now);
    Session(SessionPrefix + Decimal(now), now, backend, [])
  }
}

=== FILE: stdio.dfy ===
/** The stdio transport (internal/mcp/stdio.go): a local server process
    spoken to with one JSON-RPC message per line on its stdin and stdout.
    The process, its pipes and the line scanner are replaced by two
    oracles: `Host`, which says which acquisition step fails, and a `Wire`
    function, which says what happens to one request on the pipes. */
module Stdio {
  import opened Errors
  import opened Protocol

  const Interpreter := "python3"
  const Version := ClientInfo("extrachat", "1.0.0")

  /** The outcome of each acquisition step: None when it succeeds, the
      failure's text otherwise. */
  datatype Host = Host(stdinPipe: Option<string>, stdoutPipe: Option<string>, stderrPipe: Option<string>, start: Option<string>)

  /** One resource released by `Close`. */
  datatype Release = ClosePipe(pipe: Pipe) | KillProcess | ReapProcess

  /** The client's state: its name, the command line of its process, the
      last request id taken and the closed flag. */
  datatype StdioClient = StdioClient(name: string, command: seq<string>, lastId: int32, closed: bool)

  /** What construction did: the client or the error, the pipes it acquired,
      the pipes it closed again, and whether the process was started. */
  datatype Spawn = Spawn(client: Result<StdioClient>, acquired: seq<Pipe>, released: seq<Pipe>, started: bool)

  /** What one request meets on the pipes: the request cannot be encoded,
      writing it fails, the scanner fails or reaches end of stream, the
      line read is not a JSON-RPC response, or a response is read. */
  datatype Wire<+R> =
    | Unencodable(cause: string)
    | WriteError(cause: string)
    | ScanError(cause: string)
    | EndOfOutput
    | Garbled(cause: string)
    | Line(response: Response<R>)

  const AllPipes := [Stdin, Stdout, Stderr]

  /** The outcome of opening one pipe. */
  function PipeStep(host: Host, p: Pipe): Option<string> {
    match p
    case Stdin => host.stdinPipe
    case Stdout => host.stdoutPipe
    case Stderr => host.stderrPipe
  }

  /** NewStdioClient: refuses a nil logger before doing anything, then
      opens the three pipes and starts `python3 <script>`; a failing step
      closes every pipe opened before it. */
  function New(name: string, script: string, hasLogger: bool, host: Host): (s: Spawn)
    ensures !hasLogger ==> s == Spawn(Err(NilLogger), [], [], false)
    ensures s.client.Err? ==> s.released == s.acquired && !s.started
    ensures s.client.Ok? <==>
      hasLogger && host.stdinPipe.None? && host.stdoutPipe.None? && host.stderrPipe.None? && host.start.None?
    ensures s.client.Ok? ==>
      && s.client.value == StdioClient(name, [Interpreter, script], 0, false)
      && s.acquired == AllPipes && s.released == [] && s.started
    ensures hasLogger && host.stdinPipe.Some? ==> s == Spawn(Err(PipeFailed(Stdin, host.stdinPipe.value)), [], [], false)
    ensures hasLogger && host.stdinPipe.None? && host.stdoutPipe.Some? ==>
      s == Spawn(Err(PipeFailed(Stdout, host.stdoutPipe.value)), [Stdin], [Stdin], false)
    ensures hasLogger && host.stdinPipe.None? && host.stdoutPipe.None? && host.stderrPipe.Some? ==>
      s == Spawn(Err(PipeFailed(Stderr, host.stderrPipe.value)), [Stdin, Stdout], [Stdin, Stdout], false)
    ensures hasLogger && host.stdinPipe.None? && host.stdoutPipe.None? && host.stderrPipe.None? && host.start.Some? ==>
      s == Spawn(Err(StartFailed(host.start.value)), AllPipes, AllPipes, false)
    ensures forall k :: 0 <= k < |AllPipes| ==>
      (AllPipes[k] in s.acquired <==> hasLogger && forall j :: 0 <= j <= k ==> PipeStep(host, AllPipes[j]).None?)
  {
    assert AllPipes[0] == Stdin && AllPipes[1] == Stdout && AllPipes[2] == Stderr;
    if !hasLogger then Spawn(Err(NilLogger), [], [], false)
    else if host.stdinPipe.Some? then Spawn(Err(PipeFailed(Stdin, host.stdinPipe.value)), [], [], false)
    else if host.stdoutPipe.Some? then Spawn(Err(PipeFailed(Stdout, host.stdoutPipe.value)), [Stdin], [Stdin], false)
    else if host.stderrPipe.Some? then Spawn(Err(PipeFailed(Stderr, host.stderrPipe.value)), [Stdin, Stdout], [Stdin, Stdout], false)
    else if host.start.Some? then Spawn(Err(StartFailed(host.start.value)), AllPipes, AllPipes, false)
    else Spawn(Ok(StdioClient(name, [Interpreter, script], 0, false)), AllPipes, [], true)
  }

  /** sendRequest. */
  function Send<R>(c: StdioClient, methodName: string, params: Params, wire: Request -> Wire<R>, zero: R): (x: Exchange<StdioClient, R>)
    ensures c.closed ==> x == Exchange(c, None, Err(ClientClosed))
    ensures !c.closed ==>
      && x.client == c.(lastId := NextId(c.lastId))
      && x.issued == Some(Request(JsonRpcVersion, NextId(c.lastId) as int, methodName, params))
    ensures !c.closed && wire(x.issued.value).EndOfOutput? ==> x.result == Err(EndOfStream)
    ensures !c.closed && wire(x.issued.value).Line? ==> x.result == Settle(wire(x.issued.value).response, zero)
    ensures x.result.Ok? ==> x.issued.Some? && wire(x.issued.value).Line?
  {
    if c.closed then Exchange(c, None, Err(ClientClosed))
    else
      var id := NextId(c.lastId);
      var request := Request(JsonRpcVersion, id as int, methodName, params);
      var result :=
        match wire(request)
        case Unencodable(cause) => Err(EncodeRequestFailed(cause))
        case WriteError(cause) => Err(WriteFailed(cause))
        case ScanError(cause) => Err(ReadFailed(cause))
        case EndOfOutput => Err(EndOfStream)
        case Garbled(cause) => Err(DecodeResponseFailed(cause))
        case Line(response) => Settle(response, zero);
      Exchange(c.(lastId := id), Some(request), result)
  }

  /** Initialize: an `initialize` request carrying this client's name and
      version; the reply's server info. */
  function Initialize(c: StdioClient, wire: Request -> Wire<InitializeResult>): (x: Exchange<StdioClient, ServerInfo>)
    ensures c.closed ==> x == Exchange(c, None, Err(Wrapped("initialize failed", ClientClosed)))
    ensures !c.closed ==> x.client == c.(lastId := NextId(c.lastId)) && x.issued == Some(Request(JsonRpcVersion, NextId(c.lastId) as int, MethodInitialize, InitializeParams(Version)))
    ensures x.result.Ok? ==> wire(x.issued.value).Line? && Settle(wire(x.issued.value).response, NoInitializeResult) == Ok(InitializeResult(x.result.value))
    ensures x.result.Err? ==> x.result.error.Wrapped? && x.result.error.context == "initialize failed"
  {
    Initialized(Send(c, MethodInitialize, InitializeParams(Version), wire, NoInitializeResult))
  }

  /** ListTools: a `tools/list` request without params; the server's tools,
      in its order, each tagged with this client's name. */
  function ListTools(c: StdioClient, wire: Request -> Wire<ListToolsResult>): (x: Exchange<StdioClient, seq<Tool>>)
    ensures c.closed ==> x == Exchange(c, None, Err(Wrapped("list tools failed", ClientClosed)))
    ensures !c.closed ==> x.client == c.(lastId := NextId(c.lastId)) && x.issued == Some(Request(JsonRpcVersion, NextId(c.lastId) as int, MethodListTools, NoParams))
    ensures x.result.Ok? ==>
      && wire(x.issued.value).Line? && Settle(wire(x.issued.value).response, NoToolList) == Ok(ListToolsResult(Infos(x.result.value)))
      && forall i :: 0 <= i < |x.result.value| ==> x.result.value[i].serverName == c.name
    ensures x.result.Err? ==> x.result.error.Wrapped? && x.result.error.context == "list tools failed"
  {
    ToolsListed(Send(c, MethodListTools, NoParams, wire, NoToolList), c.name)
  }

  /** CallTool: a `tools/call` request naming the tool and its arguments;
      the tool's result as the server sent it. */
  function CallTool(c: StdioClient, toolName: string, arguments: Json, wire: Request -> Wire<CallToolResult>): (x: Exchange<StdioClient, CallToolResult>)
    ensures c.closed ==> x == Exchange(c, None, Err(Wrapped("call tool failed", ClientClosed)))
    ensures !c.closed ==> x.client == c.(lastId := NextId(c.lastId)) && x.issued == Some(Request(JsonRpcVersion, NextId(c.lastId) as int, MethodCallTool, CallToolParams(toolName, arguments)))
    ensures x.result.Ok? ==> wire(x.issued.value).Line? && Settle(wire(x.issued.value).response, NoCallToolResult) == x.result
    ensures x.result.Err? ==> x.result.error.Wrapped? && x.result.error.context == "call tool failed"
  {
    ToolCalled(Send(c, MethodCallTool, CallToolParams(toolName, arguments), wire, NoCallToolResult))
  }

  /** Close: always succeeds; only the first call closes the pipes, kills
      the process and reaps it. */
  function Close(c: StdioClient): (r: (StdioClient, seq<Release>))
    ensures r.0 == c.(closed := true)
    ensures c.closed ==> r.1 == []
    ensures !c.closed ==> r.1 == [ClosePipe(Stdin), ClosePipe(Stdout), ClosePipe(Stderr), KillProcess, ReapProcess]
  {
    if c.closed then (c, [])
    else (c.(closed := true), [ClosePipe(Stdin), ClosePipe(Stdout), ClosePipe(Stderr), KillProcess, ReapProcess])
  }

  /** Closing twice releases nothing more, and a closed client refuses
      every request without taking an id. */
  lemma CloseIdempotent<R>(c: StdioClient, methodName: string, params: Params, wire: Request -> Wire<R>, zero: R)
    ensures Close(Close(c).0) == (Close(c).0, [])
    ensures Send(Close(c).0, methodName, params, wire, zero) == Exchange(Close(c).0, None, Err(ClientClosed))
  {
  }

  /** A sequence of requests on one client, in order; returns the final
      client and the ids the requests took. */
  function Run<R>(c: StdioClient, methodName: string, params: Params, wires: seq<Request -> Wire<R>>, zero: R): (r: (StdioClient, seq<int>))
    decreases |wires|
  {
    if |wires| == 0 then (c, [])
    else
      var x := Send(c, methodName, params, wires[0], zero);
      var rest := Run(x.client, methodName, params, wires[1..], zero);
      (rest.0, (if x.issued.Some? then [x.issued.value.id] else []) + rest.1)
  }

  /** Every request on an open client takes the next id, whatever happens
      to it on the wire: a fresh client issues 1, 2, 3, ... */
  lemma {:induction false} RunTakesConsecutiveIds<R>(c: StdioClient, methodName: string, params: Params, wires: seq<Request -> Wire<R>>, zero: R)
    requires !c.closed
    ensures Run(c, methodName, params, wires, zero).1 == IdsFrom(c.lastId, |wires|)
    ensures !Run(c, methodName, params, wires, zero).0.closed
    decreases |wires|
  {
    if |wires| > 0 {
      var x := Send(c, methodName, params, wires[0], zero);
      RunTakesConsecutiveIds(x.client, methodName, params, wires[1..], zero);
    }
  }

  lemma FreshClientIdsStartAtOne<R>(name: string, script: string, host: Host, methodName: string, params: Params, wires: seq<Request -> Wire<R>>, zero: R)
    requires New(name, script, true, host).client.Ok?
    requires |wires| <= MaxInt32 as int
    ensures var ids := Run(New(name, script, true, host).client.value, methodName, params, wires, zero).1;
      |ids| == |wires| && forall i :: 0 <= i < |ids| ==> ids[i] == i + 1
  {
    var c := New(name, script, true, host).client.value;
    RunTakesConsecutiveIds(c, methodName, params, wires, zero);
    IdsCountUp(c.lastId, |wires|);
  }

  /** A closed client takes no ids at all. */
  lemma {:induction false} ClosedRunTakesNoIds<R>(c: StdioClient, methodName: string, params: Params, wires: seq<Request -> Wire<R>>, zero: R)
    requires c.closed
    ensures Run(c, methodName, params, wires, zero) == (c, [])
    decreases |wires|
  {
    if |wires| > 0 {
      var x := Send(c, methodName, params, wires[0], zero);
      assert x.client == c && x.issued == None;
      ClosedRunTakesNoIds(c, methodName, params, wires[1..], zero);
      var rest := Run(x.client, methodName, params, wires[1..], zero);
      assert rest == (c, []);
      assert Run(c, methodName, params, wires, zero) == (rest.0, [] + rest.1);
      assert [] + rest.1 == rest.1;
    } else {
      assert Run(c, methodName, params, wires, zero) == (c, []);
    }
  }
}

=== FILE: websocket.dfy ===
/** The WebSocket transport (internal/mcp/websocket.go): one persistent
    connection, one JSON-RPC message per frame. Dialing and the frames are
    replaced by oracles: the dial outcome and a `Wire` function saying what
    happens to one request on the connection. */
module WebSocket {
  import opened Errors
  import opened Protocol

  /** ClientInfo of the initialize request. The source's initialize also sets
      protocol-version and capability members whose types are not declared
      in protocol.go; they are not part of this model. */
  const Version := ClientInfo("extrachat", "1.1.0")

  /** Close code 1000 (normal closure) of section 7.4.1 of RFC 6455. */
  const NormalClosure := 1000

  datatype WebSocketClient = WebSocketClient(name: string, url: string, lastId: int32, closed: bool)

  /** One step `Close` takes on the connection. */
  datatype Release = SendCloseFrame(code: int, reason: string) | CloseConnection

  /** What construction did: the client or the error, and whether a dial
      was attempted. */
  datatype Dialed = Dialed(client: Result<WebSocketClient>, dialAttempted: bool)

  /** What one request meets on the connection: writing the frame fails,
      reading (and decoding) the reply frame fails, or a response arrives. */
  datatype Wire<+R> = WriteError(cause: string) | ReadError(cause: string) | Frame(response: Response<R>)

  /** NewWebSocketClient: refuses a nil logger before dialing; `dial` is
      None when the dial succeeds and the failure's text otherwise. */
  function New(name: string, url: string, hasLogger: bool, dial: Option<string>): (d: Dialed)
    ensures !hasLogger ==> d == Dialed(Err(NilLogger), false)
    ensures hasLogger ==> d.dialAttempted
    ensures d.client.Ok? <==> hasLogger && dial.None?
    ensures d.client.Ok? ==> d.client.value == WebSocketClient(name, url, 0, false)
    ensures hasLogger && dial.Some? ==> d.client == Err(DialFailed(dial.value))
  {
    if !hasLogger then Dialed(Err(NilLogger), false)
    else match dial
      case Some(cause) => Dialed(Err(DialFailed(cause)), true)
      case None => Dialed(Ok(WebSocketClient(name, url, 0, false)), true)
  }

  /** sendRequest. */
  function Send<R>(c: WebSocketClient, methodName: string, params: Params, wire: Request -> Wire<R>, zero: R): (x: Exchange<WebSocketClient, R>)
    ensures c.closed ==> x == Exchange(c, None, Err(ClientClosed))
    ensures !c.closed ==>
      && x.client == c.(lastId := NextId(c.lastId))
      && x.issued == Some(Request(JsonRpcVersion, NextId(c.lastId) as int, methodName, params))
    ensures !c.closed && wire(x.issued.value).Frame? ==> x.result == Settle(wire(x.issued.value).response, zero)
    ensures x.result.Ok? ==> x.issued.Some? && wire(x.issued.value).Frame?
  {
    if c.closed then Exchange(c, None, Err(ClientClosed))
    else
      var id := NextId(c.lastId);
      var request := Request(JsonRpcVersion, id as int, methodName, params);
      var result :=
        match wire(request)
        case WriteError(cause) => Err(WriteFailed(cause))
        case ReadError(cause) => Err(ReadFailed(cause))
        case Frame(response) => Settle(response, zero);
      Exchange(c.(lastId := id), Some(request), result)
  }

  /** Initialize: an `initialize` request carrying this client's name and
      version; the reply's server info. */
  function Initialize(c: WebSocketClient, wire: Request -> Wire<InitializeResult>): (x: Exchange<WebSocketClient, ServerInfo>)
    ensures c.closed ==> x == Exchange(c, None, Err(Wrapped("initialize failed", ClientClosed)))
    ensures !c.closed ==> x.client == c.(lastId := NextId(c.lastId)) && x.issued == Some(Request(JsonRpcVersion, NextId(c.lastId) as int, MethodInitialize, InitializeParams(Version)))
    ensures x.result.Ok? ==> wire(x.issued.value).Frame? && Settle(wire(x.issued.value).response, NoInitializeResult) == Ok(InitializeResult(x.result.value))
    ensures x.result.Err? ==> x.result.error.Wrapped? && x.result.error.context == "initialize failed"
  {
    Initialized(Send(c, MethodInitialize, InitializeParams(Version), wire, NoInitializeResult))
  }

  /** ListTools: a `tools/list` request without params; the server's tools,
      in its order, each tagged with this client's name. */
  function ListTools(c: WebSocketClient, wire: Request -> Wire<ListToolsResult>): (x: Exchange<WebSocketClient, seq<Tool>>)
    ensures c.closed ==> x == Exchange(c, None, Err(Wrapped("list tools failed", ClientClosed)))
    ensures !c.closed ==> x.client == c.(lastId := NextId(c.lastId)) && x.issued == Some(Request(JsonRpcVersion, NextId(c.lastId) as int, MethodListTools, NoParams))
    ensures x.result.Ok? ==>
      && wire(x.issued.value).Frame? && Settle(wire(x.issued.value).response, NoToolList) == Ok(ListToolsResult(Infos(x.result.value)))
      && forall i :: 0 <= i < |x.result.value| ==> x.result.value[i].serverName == c.name
    ensures x.result.Err? ==> x.result.error.Wrapped? && x.result.error.context == "list tools failed"
  {
    ToolsListed(Send(c, MethodListTools, NoParams, wire, NoToolList), c.name)
  }

  /** CallTool: a `tools/call` request naming the tool and its arguments;
      the tool's result as the server sent it. */
  function CallTool(c: WebSocketClient, toolName: string, arguments: Json, wire: Request -> Wire<CallToolResult>): (x: Exchange<WebSocketClient, CallToolResult>)
    ensures c.closed ==> x == Exchange(c, None, Err(Wrapped("call tool failed", ClientClosed)))
    ensures !c.closed ==> x.client == c.(lastId := NextId(c.lastId)) && x.issued == Some(Request(JsonRpcVersion, NextId(c.lastId) as int, MethodCallTool, CallToolParams(toolName, arguments)))
    ensures x.result.Ok? ==> wire(x.issued.value).Frame? && Settle(wire(x.issued.value).response, NoCallToolResult) == x.result
    ensures x.result.Err? ==> x.result.error.Wrapped? && x.result.error.context == "call tool failed"
  {
    ToolCalled(Send(c, MethodCallTool, CallToolParams(toolName, arguments), wire, NoCallToolResult))
  }

  /** Close: always succeeds; only the first call sends the close frame and
      closes the connection. */
  function Close(c: WebSocketClient): (r: (WebSocketClient, seq<Release>))
    ensures r.0 == c.(closed := true)
    ensures c.closed ==> r.1 == []
    ensures !c.closed ==> r.1 == [SendCloseFrame(NormalClosure, ""), CloseConnection]
  {
    if c.closed then (c, [])
    else (c.(closed := true), [SendCloseFrame(NormalClosure, ""), CloseConnection])
  }

  lemma CloseIdempotent<R>(c: WebSocketClient, methodName: string, params: Params, wire: Request -> Wire<R>, zero: R)
    ensures Close(Close(c).0) == (Close(c).0, [])
    ensures Send(Close(c).0, methodName, params, wire, zero) == Exchange(Close(c).0, None, Err(ClientClosed))
  {
  }

  /** A sequence of requests on one client; the final client and the ids
      the requests took. */
  function Run<R>(c: WebSocketClient, methodName: string, params: Params, wires: seq<Request -> Wire<R>>, zero: R): (r: (WebSocketClient, seq<int>))
    decreases |wires|
  {
    if |wires| == 0 then (c, [])
    else
      var x := Send(c, methodName, params, wires[0], zero);
      var rest := Run(x.client, methodName, params, wires[1..], zero);
      (rest.0, (if x.issued.Some? then [x.issued.value.id] else []) + rest.1)
  }

  lemma {:induction false} RunTakesConsecutiveIds<R>(c: WebSocketClient, methodName: string, params: Params, wires: seq<Request -> Wire<R>>, zero: R)
    requires !c.closed
    ensures Run(c, methodName, params, wires, zero).1 == IdsFrom(c.lastId, |wires|)
    ensures !Run(c, methodName, params, wires, zero).0.closed
    decreases |wires|
  {
    if |wires| > 0 {
      var x := Send(c, methodName, params, wires[0], zero);
      RunTakesConsecutiveIds(x.client, methodName, params, wires[1..], zero);
    }
  }

  lemma FreshClientIdsStartAtOne<R>(name: string, url: string, methodName: string, params: Params, wires: seq<Request -> Wire<R>>, zero: R)
    requires |wires| <= MaxInt32 as int
    ensures var ids := Run(New(name, url, true, None).client.value, methodName, params, wires, zero).1;
      |ids| == |wires| && forall i :: 0 <= i < |ids| ==> ids[i] == i + 1
  {
    var c := New(name, url, true, None).client.value;
    RunTakesConsecutiveIds(c, methodName, params, wires, zero);
    IdsCountUp(c.lastId, |wires|);
  }

  lemma {:induction false} ClosedRunTakesNoIds<R>(c: WebSocketClient, methodName: string, params: Params, wires: seq<Request -> Wire<R>>, zero: R)
    requires c.closed
    ensures Run(c, methodName, params, wires, zero) == (c, [])
    decreases |wires|
  {
    if |wires| > 0 {
      var x := Send(c, methodName, params, wires[0], zero);
      assert x.client == c && x.issued == None;
      ClosedRunTakesNoIds(c, methodName, params, wires[1..], zero);
      var rest := Run(x.client, methodName, params, wires[1..], zero);
      assert rest == (c, []);
      assert Run(c, methodName, params, wires, zero) == (rest.0, [] + rest.1);
      assert [] + rest.1 == rest.1;
    } else {
      assert Run(c, methodName, params, wires, zero) == (c, []);
    }
  }
}
